=== FILE: README.md ===
# RockBLOCK 9704 — Zephyr serial backend and GPIO binding

This project models two stateful parts of the Zephyr port of the RockBLOCK 9704
hardware layer, and proves properties of them.

- **The serial backend** (`src/serial_presets/serial_zephyr/serial_zephyr.c`).
  - It keeps the connection state OPEN or CLOSED (`serialState`).
  - It binds a UART device by name (`setContextZephyr`).
  - It configures the UART at the context's baud with 8N1 and no flow control, installs the receive callback and enables reception (`openPortZephyr`).
  - It tears that down again (`closePortZephyr`).
  - It transmits byte by byte (`writeZephyr`).
  - It hands received bytes to the consumer through a 1024-byte FIFO (`uart_rx_callback`, `readZephyr`, `peekZephyr`).
- **The GPIO binding** (`zephyr/gpio_zephyr.c`).
  - It resolves and configures the power-enable, iridium-enable and boot lines lazily and once (`init_gpio_devices`).
  - It drives any of the three lines, selected by pin number in the order power, iridium, boot (`gpioToggle`, `gpioDriveHigh`, `gpioDriveLow`).
  - It reads the boot line (`gpioReceive`).
  - It polls the boot line every 10 ms until it reads 1 or a timeout passes (`gpioListenIridBooted`).
  - It publishes the (chip, pin) of each role (`gpioTable`).

Each C file is modelled twice:

- **A pure model.** `SerialModel` and `GpioModel` give one function per C function, over a datatype holding the file's whole static state. The exceptions are `gpioDriveHigh` and `gpioDriveLow`: they are `gpioToggle` with the value 1 or 0, so they exist only as class methods, whose contracts are `GpioModel.Toggle` with that value. `RingBuf` is the receive queue.
- **A class.** `SerialZephyr.ZephyrSerial` and `GpioZephyr.ZephyrGpio` have the C statics as fields. Their methods update those fields in place, and each method is proved to leave `Model()` equal to the model function applied to the state before the call. The exceptions are `ZephyrSerial.Bind` and `ZephyrSerial.StoreName`: they are the two halves of `setContextZephyr`'s binding step (the field updates and the name copy), each with its own contract, and `ZephyrSerial.SetContext` composes them.
  - Transmission is a loop with one `uart_poll_out` per byte.
  - Reading copies into the caller's array.
  - The boot wait is a `while` loop over an uptime clock (`GpioZephyr.Clock`) that advances only while sleeping.

`SerialTrace` and `GpioTrace` run arbitrary sequences of calls and prove the properties that span several calls:

- FIFO conservation of received bytes;
- the transmit log;
- refusal until the port is opened;
- no pin I/O before all three lines are configured;
- no re-initialisation once initialised.

Driver and kernel calls are not executed:

- What they return is an input: `UartDriver`, the `found` flag for `device_get_binding`, `GpioDriver`, the levels `gpio_pin_get_dt` reads, and `setRet`.
- The calls the code makes into the drivers are appended to a `calls` log in the state. The one exception is the serial backend's `device_get_binding`: it is not logged, and only its result, `found`, is an input. The GPIO binding logs its device lookups.
- The build-time constants are parameters: `SERIAL_PORT_LENGTH` is the length of the port-name buffer, and the Kconfig chips and pins are a `GpioConfig`.

Where the component's documentation and the code differ, the model follows the code:

- The receive queue is emptied when a port is bound (`ring_buf_init` in `setContextZephyr`), not when it is opened.
- Binding while OPEN runs the self-test: the open succeeds at once, and the close then leaves the port CLOSED.
- A failed lookup in `setContextZephyr` sets `uart_dev` to NULL, so a port that was bound and OPEN loses its device. Writes are then refused, while reads and peeks still serve the queue.
- `gpioReceive` returns whatever `gpio_pin_get_dt` returns, which includes a negative error code, not only 0 or 1.
- The queue's overflow policy is the one Zephyr's `ring_buf_put` has. A put accepts as much as fits, drops the rest of the chunk (the newest bytes) and never overwrites queued bytes.

## Model

| member | source | states |
|---|---|---|
| SerialModel.Initial | src/serial_presets/serial_zephyr/serial_zephyr.c:9-20 | at start-up the port is CLOSED, nothing is bound, the queue and the call log are empty, and the name buffer has SERIAL_PORT_LENGTH characters |
| RingBuf.Put | src/serial_presets/serial_zephyr/serial_zephyr.c:28 | a put appends a prefix of the chunk, never exceeds the capacity, never changes queued bytes, and accepts the whole chunk unless the queue becomes full |
| RingBuf.Get | src/serial_presets/serial_zephyr/serial_zephyr.c:152 | a get removes exactly min(n, queued) bytes from the front; what it returns followed by what remains is the old queue |
| RingBuf.PutAll | src/serial_presets/serial_zephyr/serial_zephyr.c:28 | successive puts keep the queue within capacity and only ever extend it |
| RingBuf.PutAllWithinCapacity | src/serial_presets/serial_zephyr/serial_zephyr.c:28 | while the chunks fit, successive puts lose nothing and keep their order |
| RingBuf.FifoRoundTrip | src/serial_presets/serial_zephyr/serial_zephyr.c:28-152 | from an empty queue, puts that fit followed by one get of the capacity return exactly the concatenated chunks and leave the queue empty |
| RingBuf.PutOnFullRejects | src/serial_presets/serial_zephyr/serial_zephyr.c:28 | a put on a full queue accepts nothing and leaves the queue as it was |
| SerialModel.CString | src/serial_presets/serial_zephyr/serial_zephyr.c:54-55 | the C string of a buffer is the prefix before its first NUL and contains no NUL |
| SerialModel.CopyPortName | src/serial_presets/serial_zephyr/serial_zephyr.c:54-55 | the copied buffer has the full buffer length and a NUL in its last cell, and its C string is the port name cut to SERIAL_PORT_LENGTH-1 characters |
| SerialModel.PortNameBounded | src/serial_presets/serial_zephyr/serial_zephyr.c:54-55 | after binding, the stored name fits the buffer with its terminator and is a prefix of the given name |
| SerialModel.Transmitted | src/serial_presets/serial_zephyr/serial_zephyr.c:139 | the bytes on the line are those of the poll-out calls of the log, in order |
| SerialModel.TransmittedConcat | src/serial_presets/serial_zephyr/serial_zephyr.c:139 | the bytes sent by two call logs in turn are the bytes of the first followed by those of the second |
| SerialModel.PollOuts | src/serial_presets/serial_zephyr/serial_zephyr.c:138-140 | the write loop makes one poll-out call per byte, and together they put exactly those bytes on the line |
| SerialModel.LineConfig | src/serial_presets/serial_zephyr/serial_zephyr.c:84-88 | the line configuration open uses is the given baud with no parity, 1 stop bit, 8 data bits and no flow control |
| SerialModel.Delivered | src/serial_presets/serial_zephyr/serial_zephyr.c:28 | an RX_RDY event delivers len bytes, the i-th being buf[offset+i] |
| SerialModel.OpenAttempt | src/serial_presets/serial_zephyr/serial_zephyr.c:90-108 | open makes configure, callback-set and rx-enable in that order and stops after the first that fails: one call iff configure fails, two iff callback-set fails, three otherwise |
| SerialModel.OpenPort | src/serial_presets/serial_zephyr/serial_zephyr.c:72-113 | open succeeds iff the port is already OPEN, or a device is bound and configure, callback-set and rx-enable all return 0; the state becomes OPEN only on success and is otherwise unchanged; an OPEN port is left untouched; the line config is the context baud with no parity, 1 stop bit, 8 data bits and no flow control; a CLOSED port with no device is left untouched; on a bound CLOSED port the calls made are exactly OpenAttempt's, so all three on success; nothing is transmitted |
| SerialModel.OpenIdempotent | src/serial_presets/serial_zephyr/serial_zephyr.c:74-76 | opening a port that an open left OPEN succeeds again and changes nothing, whatever the driver returns |
| SerialModel.ClosePort | src/serial_presets/serial_zephyr/serial_zephyr.c:115-129 | close always succeeds and leaves the port CLOSED; a CLOSED port is untouched; an OPEN port with a device gets rx-disable then callback removal, and nothing else changes |
| SerialModel.CloseIdempotent | src/serial_presets/serial_zephyr/serial_zephyr.c:115-129 | closing twice is the same as closing once |
| SerialModel.WritePort | src/serial_presets/serial_zephyr/serial_zephyr.c:131-143 | a write returns -1 iff the port is not OPEN or no device is bound, and then changes nothing; otherwise it returns length, changes only the call log, and the calls it adds are exactly one poll-out per byte of data[0..length), in order, so the line carries exactly those bytes after what it carried before |
| SerialModel.ReadPort | src/serial_presets/serial_zephyr/serial_zephyr.c:145-155 | a read returns -1 iff the port is not OPEN or the buffer is NULL, and then changes nothing; otherwise it returns min(length, queued) bytes from the front of the queue, and the rest of the queue is the suffix; nothing but the queue changes |
| SerialModel.PeekPort | src/serial_presets/serial_zephyr/serial_zephyr.c:157-165 | peek returns -1 iff the port is not OPEN, and otherwise the number of queued bytes, which is at most RX_BUFFER_SIZE = 1024 |
| SerialModel.RxCallback | src/serial_presets/serial_zephyr/serial_zephyr.c:23-39 | RX_RDY appends buf[offset..offset+len) to the queue as far as it fits; RX_DISABLED re-enables reception and leaves the queue alone; every other event changes nothing; the queue bound holds |
| SerialModel.SetContext | src/serial_presets/serial_zephyr/serial_zephyr.c:41-70 | if no device is found, only the device handle changes (to NULL) and the result is false; otherwise the device, an empty queue, the truncated name, the baud and the Zephyr operations are bound, the state ends CLOSED, and the result is true iff the open-then-close self-test opens; from OPEN the configuration is kept and only the close's two calls are made; from CLOSED the configuration becomes the line configuration for the baud and the calls are open's attempt followed, on success, by the close's two calls |
| SerialZephyr.ZephyrSerial.constructor | src/serial_presets/serial_zephyr/serial_zephyr.c:9-20 | the object starts in the start-up state |
| SerialZephyr.ZephyrSerial.RxCallback | src/serial_presets/serial_zephyr/serial_zephyr.c:23-39 | the new state is SerialModel.RxCallback of the old one |
| SerialZephyr.ZephyrSerial.SetContext | src/serial_presets/serial_zephyr/serial_zephyr.c:41-70 | the name buffer is filled in place by the strncpy loop, and the new state and the result are SerialModel.SetContext of the old state |
| SerialZephyr.ZephyrSerial.Bind | src/serial_presets/serial_zephyr/serial_zephyr.c:44-61 | binding sets the device, empties the queue, stores the truncated name, the baud and the Zephyr operations, and changes nothing else |
| SerialZephyr.ZephyrSerial.StoreName | src/serial_presets/serial_zephyr/serial_zephyr.c:54-55 | the copy loop and the terminator leave the name buffer equal to CopyPortName |
| SerialZephyr.ZephyrSerial.OpenPort | src/serial_presets/serial_zephyr/serial_zephyr.c:72-113 | the new state and the result are SerialModel.OpenPort of the old state |
| SerialZephyr.ZephyrSerial.ClosePort | src/serial_presets/serial_zephyr/serial_zephyr.c:115-129 | the new state is SerialModel.ClosePort of the old state, and the result is true |
| SerialZephyr.ZephyrSerial.Write | src/serial_presets/serial_zephyr/serial_zephyr.c:131-143 | the byte loop leaves the state and result of SerialModel.WritePort |
| SerialZephyr.ZephyrSerial.Read | src/serial_presets/serial_zephyr/serial_zephyr.c:145-155 | the new state and the result are SerialModel.ReadPort of the old state; the caller's array receives the bytes read at its front, and the rest of it is unchanged |
| SerialZephyr.ZephyrSerial.Peek | src/serial_presets/serial_zephyr/serial_zephyr.c:157-165 | peek changes nothing, returns SerialModel.PeekPort, and the result is at most 1024 |
| SerialTrace.Step | src/serial_presets/serial_zephyr/serial_zephyr.c:23-165 | each call keeps the queue bound; reads remove exactly the bytes they return from the front; binding to a device that is found empties the queue, a failed lookup leaves it alone; only RX_RDY events add bytes, and the bytes they add are the accepted prefix of the delivered range; every other event adds nothing; open, close, write and peek leave the queue alone; a write replies with WritePort's result and, when the port is OPEN with a device bound, with data[0..length) as the bytes sent, otherwise with nothing sent; from CLOSED, every call except open leaves the port CLOSED and write, read and peek return -1 |
| SerialTrace.QueueConservation | src/serial_presets/serial_zephyr/serial_zephyr.c:23-165 | over any sequence of calls without rebinding, the old queue followed by the bytes the callback accepted equals the bytes the reads returned followed by the final queue |
| SerialTrace.StepTransmits | src/serial_presets/serial_zephyr/serial_zephyr.c:131-143 | only a write puts bytes on the line, and exactly the bytes it reports sending |
| SerialTrace.TransmitLog | src/serial_presets/serial_zephyr/serial_zephyr.c:131-143 | over any sequence of calls, the line carries exactly the bytes of the successful writes, in order |
| SerialTrace.RefusedUntilOpened | src/serial_presets/serial_zephyr/serial_zephyr.c:72-165 | from CLOSED, any calls without an open leave the port CLOSED, and every write, read and peek among them returns -1 |
| SerialTrace.RunAppend | src/serial_presets/serial_zephyr/serial_zephyr.c:23-165 | running two call sequences one after the other is running their concatenation |
| SerialTrace.BindHealthy | src/serial_presets/serial_zephyr/serial_zephyr.c:41-70 | with a driver whose three calls succeed, binding succeeds and leaves the port bound, CLOSED and with an empty queue |
| SerialTrace.BindThenOpen | src/serial_presets/serial_zephyr/serial_zephyr.c:41-113 | with a healthy driver, binding at 9600 baud and then opening both succeed and leave the port OPEN with an empty queue |
| SerialTrace.ReceiveFive | src/serial_presets/serial_zephyr/serial_zephyr.c:23-165 | five received bytes are reported by peek, and a read of 3 returns the first three |
| SerialTrace.DrainRest | src/serial_presets/serial_zephyr/serial_zephyr.c:145-165 | with two bytes queued, peek reports 2, a read of 10 returns both, and peek then reports 0 |
| SerialTrace.ReceiveThenDrain | src/serial_presets/serial_zephyr/serial_zephyr.c:23-165 | five bytes received and drained by reads of 3 and 10 come out in order, and the queue ends empty |
| SerialTrace.WriteThenClose | src/serial_presets/serial_zephyr/serial_zephyr.c:115-143 | a write on an OPEN port sends its bytes; after a close the same write returns -1 |
| GpioModel.Initial | zephyr/gpio_zephyr.c:9-33 | at start-up the flag is clear, the three device handles and pin ports are NULL, the pin numbers are the configured ones, and no driver call has been made |
| GpioModel.ToggleTarget | zephyr/gpio_zephyr.c:82-91 | a pin number selects the power, iridium or boot line, tried in that order, and selects none iff it is none of the three configured pins |
| GpioModel.ReceiveTarget | zephyr/gpio_zephyr.c:116-123 | only the configured boot pin can be read |
| GpioModel.Table | zephyr/gpio_zephyr.c:149-153 | the table's entry for each role is that role's configured chip and pin |
| GpioModel.TableMatchesDispatch | zephyr/gpio_zephyr.c:149-153 | the table's pins are accepted by toggle; when the three pins differ each drives its own line; the table's boot entry is the pin that receive reads |
| GpioModel.InitDevices | zephyr/gpio_zephyr.c:35-74 | once done, init returns true and changes nothing; otherwise it succeeds iff all three devices resolve and all three configurations return >= 0; the done flag is set iff it succeeds; the three lookups are always made; a success configures the enable lines as inactive outputs and the boot line as input, in that order; the lines are bound to their chips; otherwise the device handles are what the lookups found, the pin ports are bound only when all three were found, and a failed configuration leaves exactly the configurations up to and including the failing one in the log |
| GpioModel.Toggle | zephyr/gpio_zephyr.c:76-99 | toggle succeeds iff init succeeds, the pin is one of the three, and the driver's set returns 0; exactly one set call is made, on the selected line, only when init succeeds and the pin is known; the chip is ignored |
| GpioModel.Receive | zephyr/gpio_zephyr.c:111-127 | receive returns -1 and reads nothing unless init succeeds and the pin is the boot pin; otherwise it reads the boot line once and returns what the driver returned |
| GpioModel.Polls | zephyr/gpio_zephyr.c:134-143 | a poll at 10k ms after the start happens iff 10k < timeout*1000 |
| GpioModel.FirstHigh | zephyr/gpio_zephyr.c:137-141 | the first poll reading exactly 1, or the number of polls if none does |
| GpioModel.Listen | zephyr/gpio_zephyr.c:129-146 | the wait reports a boot iff init succeeds, the pin is the boot pin, and one of the polls within the timeout reads exactly 1; a reported boot is seen at the first poll that reads 1, before timeout*1000 ms, after exactly that many 10 ms sleeps; the boot pin is read once per poll made, up to and including the one that reads 1; with no boot the wait lasts the whole timeout; any other pin reads nothing and reports no boot; a failed init returns at once |
| GpioModel.NoWaitWithoutTimeout | zephyr/gpio_zephyr.c:134-145 | with a timeout <= 0, the wait returns false at once without reading the pin |
| GpioModel.TimesOutAfterWholeTimeout | zephyr/gpio_zephyr.c:134-145 | when no poll reads 1, the wait returns false after timeout*1000 ms |
| GpioZephyr.Clock.Sleep | zephyr/gpio_zephyr.c:142 | sleeping advances the uptime by the time slept |
| GpioZephyr.ZephyrGpio.constructor | zephyr/gpio_zephyr.c:9-33 | the object starts in the start-up state |
| GpioZephyr.ZephyrGpio.InitGpioDevices | zephyr/gpio_zephyr.c:35-74 | the new state and the result are GpioModel.InitDevices of the old state |
| GpioZephyr.ZephyrGpio.Toggle | zephyr/gpio_zephyr.c:76-99 | the new state and the result are GpioModel.Toggle of the old state |
| GpioZephyr.ZephyrGpio.DriveHigh | zephyr/gpio_zephyr.c:101-104 | driving high is GpioModel.Toggle with value 1 |
| GpioZephyr.ZephyrGpio.DriveLow | zephyr/gpio_zephyr.c:106-109 | driving low is GpioModel.Toggle with value 0 |
| GpioZephyr.ZephyrGpio.Receive | zephyr/gpio_zephyr.c:111-127 | the new state and the result are GpioModel.Receive of the old state |
| GpioZephyr.ZephyrGpio.ListenIridBooted | zephyr/gpio_zephyr.c:129-146 | the polling loop leaves the state and the result of GpioModel.Listen, and the clock advances by the wait's elapsed time |
| GpioModel.FirstHighIsFirst | zephyr/gpio_zephyr.c:137-141 | a poll with no 1 before it and a 1 at it (or the end of the polls) is the first high poll |
| GpioTrace.Step | zephyr/gpio_zephyr.c:35-146 | every call keeps the binding valid, only ever extends the call log, and never undoes a completed initialisation |
| GpioTrace.InitDisciplined | zephyr/gpio_zephyr.c:35-74 | init keeps the log discipline: pin I/O only after a complete configuration |
| GpioTrace.StepDisciplined | zephyr/gpio_zephyr.c:35-146 | every call keeps the log discipline |
| GpioTrace.NoPinIoBeforeConfigured | zephyr/gpio_zephyr.c:35-146 | over any sequence of calls from a disciplined state, every pin set or read comes after the three configure calls, made in order with no pin I/O before them |
| GpioTrace.StepAfterInit | zephyr/gpio_zephyr.c:37-39 | once initialised, a call keeps the binding initialised and adds only pin sets and reads to the log |
| GpioTrace.SetupOnce | zephyr/gpio_zephyr.c:37-39 | once initialised, any sequence of calls never resolves or configures a line again |
| GpioTrace.InitialDisciplined | zephyr/gpio_zephyr.c:9-33 | the start-up state satisfies the log discipline |

## Left out

- Zephyr's `ring_buf` internals are not modelled; the queue is a bounded sequence of bytes. `rx_buffer_data` serves both as the UART's receive buffer and as the queue's storage, and that aliasing is not modelled.
- Interrupt concurrency is not modelled. `uart_rx_callback` runs as a whole between two consumer calls.
- Logging (`LOG_ERR`, `LOG_INF`) is not modelled.
- The driver and kernel calls are not modelled: `device_get_binding`, `uart_configure`, `uart_callback_set`, `uart_rx_enable`, `uart_rx_disable`, `uart_poll_out`, `gpio_pin_configure_dt`, `gpio_pin_set_dt` and `gpio_pin_get_dt`. Their results are inputs. Every call except the serial backend's `device_get_binding` is recorded in the log; for that lookup only its result, `found`, enters the model. A device is identified by its name.
- The return values of `uart_rx_enable` in the callback, and of `uart_rx_disable` and `uart_callback_set` in close, are ignored by the code and do not appear in the model.
- `k_uptime_get` and `k_msleep` are a clock that advances only during the 10 ms sleeps. Reading the pin is taken to cost no time, so the wait makes exactly 100*timeout polls. The 64-bit uptime is an unbounded integer.
- Port names: each Dafny `char` stands for one C `char` (one byte), so the cut to SERIAL_PORT_LENGTH - 1 characters is a cut in bytes; multi-byte encodings are not modelled.
- SerialModel.WritePort: `data` must hold at least `length` bytes. A shorter buffer is out-of-bounds reading in C, which the model does not represent.
- SerialZephyr.ZephyrSerial.Read: a non-NULL `bytes` must hold at least `length` bytes, for the same reason.
- The function-pointer slots of `context` are one `Backend` value. The generic serial layer that calls through them is not part of this model.
- zephyr/crossplatform_zephyr.c, zephyr/iridium.h and src/serial_presets/serial_zephyr/serial_zephyr.h are not part of this model. The first two are pass-throughs, and the header holds declarations only.
- The Kconfig values (`CONFIG_IRIDIUM_*`) and `SERIAL_PORT_LENGTH` are defined outside these files, so they are parameters.

=== FILE: common.dfy ===
/** Machine types and small helpers shared by the serial and GPIO models. */
module Common {

  /** An unsigned 8-bit value: one byte on the UART line or in the receive queue. */
  newtype byte = x: int | 0 <= x < 0x100

  /** The C `uint16_t` used for read and write lengths. */
  type uint16 = x: int | 0 <= x < 0x1_0000

  /** The C `uint32_t` used for the baud rate. */
  type uint32 = x: int | 0 <= x < 0x1_0000_0000

  /** The C `int` (32 bits) used for the boot-wait timeout in seconds. */
  type int32 = x: int | -0x8000_0000 <= x < 0x8000_0000

  /** A pointer that may be NULL, or a lookup that may find nothing. */
  datatype Option<T> = None | Some(value: T)

  function Min(a: int, b: int): (m: int)
    ensures m <= a && m <= b && (m == a || m == b)
  {
    if a <= b then a else b
  }
}

=== FILE: gpio_model.dfy ===
/**
 * The Zephyr GPIO binding of the RockBLOCK 9704 hardware layer, as pure
 * functions over its state: the lazy-initialisation flag, the three device
 * handles, the three pin specifications and the log of driver calls made.
 * Each function is one C function of zephyr/gpio_zephyr.c; the class in
 * module GpioZephyr is proved to compute exactly these.
 *
 * The chip labels and pin numbers come from the build configuration
 * (`CONFIG_IRIDIUM_*`), so they are a parameter, `GpioConfig`. Driver calls
 * are not executed: what `device_get_binding` finds and what
 * `gpio_pin_configure_dt`, `gpio_pin_set_dt` and `gpio_pin_get_dt` return
 * are inputs, and the calls are appended to `calls`.
 */
module GpioModel {
  import opened Common

  /** The three logical lines the modem's power-up sequence uses. */
  datatype Role = PowerEnable | IridiumEnable | Booted

  /** The build configuration: a chip label and a pin number per role. */
  datatype GpioConfig = GpioConfig(
    powerChip: seq<char>, powerPin: int,
    iridiumChip: seq<char>, iridiumPin: int,
    bootChip: seq<char>, bootPin: int)

  /** A `struct gpio_dt_spec`: the device (NULL until bound) and the pin; all three are active high. */
  datatype PinSpec = PinSpec(port: Option<seq<char>>, pin: int)

  datatype PinMode = OutputInactive | Input

  /** Calls the binding makes into Zephyr. */
  datatype GpioCall =
    | Lookup(chip: seq<char>)                 // device_get_binding
    | PinConfigure(role: Role, mode: PinMode) // gpio_pin_configure_dt
    | PinSet(role: Role, value: int)          // gpio_pin_set_dt
    | PinGet(role: Role)                      // gpio_pin_get_dt

  /** What the three device lookups find and what the three pin configurations return. */
  datatype GpioDriver = GpioDriver(
    powerFound: bool, iridiumFound: bool, bootFound: bool,
    powerCfgRet: int, iridiumCfgRet: int, bootCfgRet: int)

  predicate Found(drv: GpioDriver)
  {
    drv.powerFound && drv.iridiumFound && drv.bootFound
  }

  predicate InitSucceeds(drv: GpioDriver)
  {
    Found(drv) && drv.powerCfgRet >= 0 && drv.iridiumCfgRet >= 0 && drv.bootCfgRet >= 0
  }

  datatype Gpio = Gpio(
    initDone: bool,                 // gpio_init_done
    powerDev: Option<seq<char>>,    // power_enable_dev
    iridiumDev: Option<seq<char>>,  // iridium_enable_dev
    bootDev: Option<seq<char>>,     // boot_dev
    powerPin: PinSpec,              // power_enable_pin
    iridiumPin: PinSpec,            // iridium_enable_pin
    bootPin: PinSpec,               // boot_pin
    calls: seq<GpioCall>)

  /**
   * The invariant every operation keeps: the pin numbers are the configured
   * ones, and once initialisation is done every pin is bound to its chip.
   */
  predicate Valid(cfg: GpioConfig, g: Gpio)
  {
    g.powerPin.pin == cfg.powerPin && g.iridiumPin.pin == cfg.iridiumPin && g.bootPin.pin == cfg.bootPin &&
    (g.initDone ==>
       g.powerPin.port == g.powerDev == Some(cfg.powerChip) &&
       g.iridiumPin.port == g.iridiumDev == Some(cfg.iridiumChip) &&
       g.bootPin.port == g.bootDev == Some(cfg.bootChip))
  }

  /** Start-up state: nothing resolved, nothing configured. */
  function Initial(cfg: GpioConfig): (g: Gpio)
    ensures Valid(cfg, g) && !g.initDone && g.calls == []
    ensures g.powerDev == g.iridiumDev == g.bootDev == None
    ensures g.powerPin.port == g.iridiumPin.port == g.bootPin.port == None
  {
    Gpio(false, None, None, None,
         PinSpec(None, cfg.powerPin), PinSpec(None, cfg.iridiumPin), PinSpec(None, cfg.bootPin), [])
  }

  // ------------------------------------------------------------- the table

  datatype GpioPinEntry = GpioPinEntry(chip: seq<char>, pin: int)
  datatype GpioTable = GpioTable(powerEnable: GpioPinEntry, iridiumEnable: GpioPinEntry, booted: GpioPinEntry)

  /** The configured chip label of a role. */
  function Chip(cfg: GpioConfig, role: Role): seq<char>
  {
    match role
    case PowerEnable => cfg.powerChip
    case IridiumEnable => cfg.iridiumChip
    case Booted => cfg.bootChip
  }

  /** The configured pin number of a role. */
  function Pin(cfg: GpioConfig, role: Role): int
  {
    match role
    case PowerEnable => cfg.powerPin
    case IridiumEnable => cfg.iridiumPin
    case Booted => cfg.bootPin
  }

  /** `gpioTable`: the (chip, pin) pair of each role, as the protocol layer sees them. */
  function Table(cfg: GpioConfig): (t: GpioTable)
    ensures forall role :: Entry(t, role) == GpioPinEntry(Chip(cfg, role), Pin(cfg, role))
  {
    GpioTable(GpioPinEntry(cfg.powerChip, cfg.powerPin),
              GpioPinEntry(cfg.iridiumChip, cfg.iridiumPin),
              GpioPinEntry(cfg.bootChip, cfg.bootPin))
  }

  /** The table's entry for a role. */
  function Entry(t: GpioTable, role: Role): GpioPinEntry
  {
    match role
    case PowerEnable => t.powerEnable
    case IridiumEnable => t.iridiumEnable
    case Booted => t.booted
  }

  /**
   * The pin `gpioToggle` drives for a pin number: the first role, in the order
   * power, iridium, boot, whose configured pin it is. The chip is not consulted.
   */
  function ToggleTarget(cfg: GpioConfig, pin: int): (r: Option<Role>)
    ensures r == Some(PowerEnable) <==> pin == cfg.powerPin
    ensures r == Some(IridiumEnable) <==> pin != cfg.powerPin && pin == cfg.iridiumPin
    ensures r == Some(Booted) <==> pin != cfg.powerPin && pin != cfg.iridiumPin && pin == cfg.bootPin
    ensures r == None <==> pin !in {cfg.powerPin, cfg.iridiumPin, cfg.bootPin}
  {
    if pin == cfg.powerPin then Some(PowerEnable)
    else if pin == cfg.iridiumPin then Some(IridiumEnable)
    else if pin == cfg.bootPin then Some(Booted)
    else None
  }

  /** The pin `gpioReceive` reads: only the boot pin can be read. */
  function ReceiveTarget(cfg: GpioConfig, pin: int): (r: Option<Role>)
    ensures r.Some? <==> pin == cfg.bootPin
    ensures r.Some? ==> r.value == Booted
  {
    if pin == cfg.bootPin then Some(Booted) else None
  }

  /**
   * The table and the dispatch agree: a pin number that `gpioToggle`
   * accepts is the table's pin for the role it drives, the table's own pins
   * are all accepted, and when the three pins differ each one drives its own
   * role. The boot entry is the one pin `gpioReceive` reads.
   */
  lemma TableMatchesDispatch(cfg: GpioConfig, pin: int)
    ensures var t := Table(cfg);
            (ToggleTarget(cfg, pin).Some? ==> Entry(t, ToggleTarget(cfg, pin).value).pin == pin) &&
            (ToggleTarget(cfg, pin).None? <==> forall role :: Entry(t, role).pin != pin) &&
            (ReceiveTarget(cfg, pin).Some? <==> pin == t.booted.pin)
    ensures var t := Table(cfg);
            cfg.powerPin != cfg.iridiumPin && cfg.powerPin != cfg.bootPin && cfg.iridiumPin != cfg.bootPin ==>
              forall role :: ToggleTarget(cfg, Entry(t, role).pin) == Some(role)
  {
    var t := Table(cfg);
    if ToggleTarget(cfg, pin).None? {
      forall role ensures Entry(t, role).pin != pin {
      }
    } else {
      assert Entry(t, ToggleTarget(cfg, pin).value).pin == pin;
    }
  }

  // ------------------------------------------------------------ operations

  datatype Outcome = Outcome(gpio: Gpio, ok: bool)
  datatype Reading = Reading(gpio: Gpio, value: int)

  /** The lookups `init_gpio_devices` makes, in order. */
  function Lookups(cfg: GpioConfig): seq<GpioCall>
  {
    [Lookup(cfg.powerChip), Lookup(cfg.iridiumChip), Lookup(cfg.bootChip)]
  }

  /** The configurations a successful `init_gpio_devices` makes, in order. */
  function Configures(): seq<GpioCall>
  {
    [PinConfigure(PowerEnable, OutputInactive), PinConfigure(IridiumEnable, OutputInactive),
     PinConfigure(Booted, Input)]
  }

  /** `init_gpio_devices`. */
  function InitDevices(cfg: GpioConfig, g: Gpio, drv: GpioDriver): (r: Outcome)
    requires Valid(cfg, g)
    ensures Valid(cfg, r.gpio)
    ensures g.initDone ==> r == Outcome(g, true)
    ensures r.ok <==> g.initDone || InitSucceeds(drv)
    ensures r.gpio.initDone == r.ok
    ensures !g.initDone ==> g.calls + Lookups(cfg) <= r.gpio.calls
    ensures !g.initDone && !Found(drv) ==> r.gpio.calls == g.calls + Lookups(cfg)
    ensures !g.initDone && r.ok ==> r.gpio.calls == g.calls + Lookups(cfg) + Configures()
    ensures !g.initDone && Found(drv) && drv.powerCfgRet < 0 ==>
              r.gpio.calls == g.calls + Lookups(cfg) + Configures()[..1]
    ensures !g.initDone && Found(drv) && drv.powerCfgRet >= 0 && drv.iridiumCfgRet < 0 ==>
              r.gpio.calls == g.calls + Lookups(cfg) + Configures()[..2]
    ensures !g.initDone && Found(drv) && drv.powerCfgRet >= 0 && drv.iridiumCfgRet >= 0 ==>
              r.gpio.calls == g.calls + Lookups(cfg) + Configures()
    ensures !g.initDone ==>
              r.gpio.powerDev == (if drv.powerFound then Some(cfg.powerChip) else None) &&
              r.gpio.iridiumDev == (if drv.iridiumFound then Some(cfg.iridiumChip) else None) &&
              r.gpio.bootDev == (if drv.bootFound then Some(cfg.bootChip) else None)
    ensures !g.initDone && Found(drv) ==>
              r.gpio.powerPin.port == Some(cfg.powerChip) && r.gpio.iridiumPin.port == Some(cfg.iridiumChip) &&
              r.gpio.bootPin.port == Some(cfg.bootChip)
    ensures !g.initDone && !Found(drv) ==>
              r.gpio.powerPin == g.powerPin && r.gpio.iridiumPin == g.iridiumPin && r.gpio.bootPin == g.bootPin
  {
    if g.initDone then Outcome(g, true)
    else
      var pd := if drv.powerFound then Some(cfg.powerChip) else None;
      var id := if drv.iridiumFound then Some(cfg.iridiumChip) else None;
      var bd := if drv.bootFound then Some(cfg.bootChip) else None;
      var g1 := g.(powerDev := pd, iridiumDev := id, bootDev := bd, calls := g.calls + Lookups(cfg));
      if pd.None? || id.None? || bd.None? then Outcome(g1, false)
      else
        var g2 := g1.(powerPin := g1.powerPin.(port := pd), iridiumPin := g1.iridiumPin.(port := id),
                      bootPin := g1.bootPin.(port := bd),
                      calls := g1.calls + [PinConfigure(PowerEnable, OutputInactive)]);
        if drv.powerCfgRet < 0 then Outcome(g2, false)
        else
          var g3 := g2.(calls := g2.calls + [PinConfigure(IridiumEnable, OutputInactive)]);
          if drv.iridiumCfgRet < 0 then Outcome(g3, false)
          else
            var g4 := g3.(calls := g3.calls + [PinConfigure(Booted, Input)]);
            assert g4.calls == g.calls + Lookups(cfg) + Configures();
            if drv.bootCfgRet < 0 then Outcome(g4, false)
            else Outcome(g4.(initDone := true), true)
  }

  /** `gpioToggle`: `setRet` is what `gpio_pin_set_dt` returns. */
  function Toggle(cfg: GpioConfig, g: Gpio, drv: GpioDriver, chip: seq<char>, pin: int,
                  value: int, setRet: int): (r: Outcome)
    requires Valid(cfg, g)
    ensures Valid(cfg, r.gpio)
    ensures r.ok <==> InitDevices(cfg, g, drv).ok && ToggleTarget(cfg, pin).Some? && setRet == 0
    ensures !InitDevices(cfg, g, drv).ok || ToggleTarget(cfg, pin).None? ==>
              r.gpio == InitDevices(cfg, g, drv).gpio
    ensures InitDevices(cfg, g, drv).ok && ToggleTarget(cfg, pin).Some? ==>
              r.gpio == InitDevices(cfg, g, drv).gpio.(
                          calls := InitDevices(cfg, g, drv).gpio.calls + [PinSet(ToggleTarget(cfg, pin).value, value)])
  {
    var init := InitDevices(cfg, g, drv);
    if !init.ok then Outcome(init.gpio, false)
    else
      match ToggleTarget(cfg, pin)
      case None => Outcome(init.gpio, false)
      case Some(role) => Outcome(init.gpio.(calls := init.gpio.calls + [PinSet(role, value)]), setRet == 0)
  }

  /** `gpioReceive`: `level` is what `gpio_pin_get_dt` returns (negative on a driver error). */
  function Receive(cfg: GpioConfig, g: Gpio, drv: GpioDriver, chip: seq<char>, pin: int,
                   level: int): (r: Reading)
    requires Valid(cfg, g)
    ensures Valid(cfg, r.gpio)
    ensures InitDevices(cfg, g, drv).ok && pin == cfg.bootPin ==>
              r == Reading(InitDevices(cfg, g, drv).gpio.(calls := InitDevices(cfg, g, drv).gpio.calls + [PinGet(Booted)]),
                           level)
    ensures !(InitDevices(cfg, g, drv).ok && pin == cfg.bootPin) ==>
              r == Reading(InitDevices(cfg, g, drv).gpio, -1)
  {
    var init := InitDevices(cfg, g, drv);
    if !init.ok then Reading(init.gpio, -1)
    else
      match ReceiveTarget(cfg, pin)
      case None => Reading(init.gpio, -1)
      case Some(role) => Reading(init.gpio.(calls := init.gpio.calls + [PinGet(role)]), level)
  }

  // ------------------------------------------------------------ boot wait

  /** Poll interval of `gpioListenIridBooted`, in milliseconds. */
  const POLL_MS: nat := 10

  /**
   * How many polls fit before the deadline: poll k happens after k sleeps,
   * at 10k ms, and only while that is below `timeout * 1000` ms.
   */
  function Polls(timeout: int32): (n: nat)
    ensures forall k: nat :: k < n <==> POLL_MS * k < timeout * 1000
  {
    if timeout <= 0 then 0 else 100 * timeout
  }

  /** The first poll, from `from` on and before `polls`, whose reading is exactly 1; `polls` if none. */
  function FirstHigh(level: nat -> int, from: nat, polls: nat): (k: nat)
    requires from <= polls
    ensures from <= k <= polls
    ensures forall j :: from <= j < k ==> level(j) != 1
    ensures k < polls ==> level(k) == 1
    decreases polls - from
  {
    if from == polls then polls
    else if level(from) == 1 then from
    else FirstHigh(level, from + 1, polls)
  }

  /** `FirstHigh` is the first poll reading 1: any k with no 1 before it and a 1 at it (or k = polls). */
  lemma FirstHighIsFirst(level: nat -> int, polls: nat, k: nat)
    requires k <= polls
    requires forall j :: 0 <= j < k ==> level(j) != 1
    requires k < polls ==> level(k) == 1
    ensures FirstHigh(level, 0, polls) == k
  {
  }

  /** `n` reads of the boot pin. */
  function Gets(n: nat): (cs: seq<GpioCall>)
    ensures |cs| == n && forall c | c in cs :: c == PinGet(Booted)
  {
    seq(n, _ => PinGet(Booted))
  }

  datatype Wait = Wait(gpio: Gpio, booted: bool, elapsed: nat)

  /**
   * `gpioListenIridBooted`: `level(k)` is what the k-th `gpio_pin_get_dt`
   * returns; `elapsed` is the time the wait took, in milliseconds, on a clock
   * that advances only while sleeping.
   */
  function Listen(cfg: GpioConfig, g: Gpio, drv: GpioDriver, chip: seq<char>, pin: int,
                  timeout: int32, level: nat -> int): (r: Wait)
    requires Valid(cfg, g)
    ensures Valid(cfg, r.gpio) && r.gpio.initDone == InitDevices(cfg, g, drv).ok
    ensures r.booted <==> InitDevices(cfg, g, drv).ok && pin == cfg.bootPin &&
                          exists k :: 0 <= k < Polls(timeout) && level(k) == 1
    ensures r.booted ==> r.elapsed < timeout * 1000 && level(r.elapsed / POLL_MS) == 1
    ensures r.booted ==> r.elapsed % POLL_MS == 0 && forall j :: 0 <= j < r.elapsed / POLL_MS ==> level(j) != 1
    ensures !r.booted && InitDevices(cfg, g, drv).ok ==> r.elapsed == POLL_MS * Polls(timeout)
    ensures !InitDevices(cfg, g, drv).ok ==> r == Wait(InitDevices(cfg, g, drv).gpio, false, 0)
    ensures InitDevices(cfg, g, drv).ok && pin == cfg.bootPin ==>
              r.gpio == InitDevices(cfg, g, drv).gpio.(
                          calls := InitDevices(cfg, g, drv).gpio.calls +
                                   Gets(if r.booted then r.elapsed / POLL_MS + 1 else Polls(timeout)))
    ensures pin != cfg.bootPin ==> r.gpio == InitDevices(cfg, g, drv).gpio && !r.booted
  {
    var init := InitDevices(cfg, g, drv);
    var polls := Polls(timeout);
    if !init.ok then Wait(init.gpio, false, 0)
    else if pin != cfg.bootPin then Wait(init.gpio, false, POLL_MS * polls)
    else
      var k := FirstHigh(level, 0, polls);
      var gets := if k < polls then k + 1 else polls;
      Wait(init.gpio.(calls := init.gpio.calls + Gets(gets)), k < polls, POLL_MS * k)
  }

  /** A non-positive timeout never polls the pin and never reports a boot. */
  lemma NoWaitWithoutTimeout(cfg: GpioConfig, g: Gpio, drv: GpioDriver, chip: seq<char>, pin: int,
                             timeout: int32, level: nat -> int)
    requires Valid(cfg, g) && timeout <= 0
    ensures var r := Listen(cfg, g, drv, chip, pin, timeout, level);
            !r.booted && r.elapsed == 0 && r.gpio == InitDevices(cfg, g, drv).gpio
  {
  }

  /** Without a reading of 1, the wait ends false after the whole timeout, `timeout * 1000` ms. */
  lemma TimesOutAfterWholeTimeout(cfg: GpioConfig, g: Gpio, drv: GpioDriver, chip: seq<char>, pin: int,
                                  timeout: int32, level: nat -> int)
    requires Valid(cfg, g) && InitDevices(cfg, g, drv).ok && timeout > 0
    requires forall k :: level(k) != 1
    ensures var r := Listen(cfg, g, drv, chip, pin, timeout, level);
            !r.booted && r.elapsed == timeout * 1000
  {
  }
}

=== FILE: gpio_trace.dfy ===
/**
 * Sequences of calls into the GPIO binding. The lazy initialisation in
 * zephyr/gpio_zephyr.c is what keeps the modem's lines safe: no pin is driven
 * or read before all three lines have been looked up and configured, and once
 * that has succeeded it is never done again.
 */
module GpioTrace {
  import opened Common
  import opened GpioModel

  /** One call of the binding's public API, with what its driver calls return. */
  datatype Op =
    | InitOp(drv: GpioDriver)
    | ToggleOp(chip: seq<char>, pin: int, value: int, drv: GpioDriver, setRet: int)
    | ReceiveOp(chip: seq<char>, pin: int, drv: GpioDriver, level: int)
    | ListenOp(chip: seq<char>, pin: int, timeout: int32, drv: GpioDriver, levels: nat -> int)

  function Step(cfg: GpioConfig, g: Gpio, op: Op): (r: Gpio)
    requires Valid(cfg, g)
    ensures Valid(cfg, r)
    ensures g.calls <= r.calls
    ensures g.initDone ==> r.initDone
  {
    match op
    case InitOp(drv) => InitDevices(cfg, g, drv).gpio
    case ToggleOp(chip, pin, value, drv, setRet) => Toggle(cfg, g, drv, chip, pin, value, setRet).gpio
    case ReceiveOp(chip, pin, drv, level) => Receive(cfg, g, drv, chip, pin, level).gpio
    case ListenOp(chip, pin, timeout, drv, level) => Listen(cfg, g, drv, chip, pin, timeout, level).gpio
  }

  function Run(cfg: GpioConfig, g: Gpio, ops: seq<Op>): (r: Gpio)
    requires Valid(cfg, g)
    ensures Valid(cfg, r)
    decreases |ops|
  {
    if ops == [] then g else Run(cfg, Step(cfg, g, ops[0]), ops[1..])
  }

  /** Driving or reading a pin, as opposed to setting the binding up. */
  predicate PinIo(c: GpioCall)
  {
    c.PinSet? || c.PinGet?
  }

  /** No pin was driven or read in `cs`. */
  predicate SetupOnly(cs: seq<GpioCall>)
  {
    forall c | c in cs :: !PinIo(c)
  }

  /** `cs` makes the three configure calls, in order, before any pin I/O. */
  predicate ConfiguredFirst(cs: seq<GpioCall>)
  {
    exists n :: 3 <= n <= |cs| && cs[n - 3..n] == Configures() && SetupOnly(cs[..n])
  }

  /** The log invariant: pin I/O happens only once initialisation has completed. */
  predicate Disciplined(g: Gpio)
  {
    if g.initDone then ConfiguredFirst(g.calls) else SetupOnly(g.calls)
  }

  lemma ConfiguredFirstExtends(cs: seq<GpioCall>, ds: seq<GpioCall>)
    requires ConfiguredFirst(cs) && cs <= ds
    ensures ConfiguredFirst(ds)
  {
    var n :| 3 <= n <= |cs| && cs[n - 3..n] == Configures() && SetupOnly(cs[..n]);
    assert ds[..n] == cs[..n];
    assert ds[n - 3..n] == cs[n - 3..n];
  }

  lemma InitDisciplined(cfg: GpioConfig, g: Gpio, drv: GpioDriver)
    requires Valid(cfg, g) && Disciplined(g)
    ensures Disciplined(InitDevices(cfg, g, drv).gpio)
  {
    var r := InitDevices(cfg, g, drv);
    if !g.initDone {
      var setup := Lookups(cfg) + Configures();
      assert SetupOnly(setup);
      assert g.calls + Lookups(cfg) <= r.gpio.calls <= g.calls + setup;
      SetupOnlyPrefix(g.calls, setup, r.gpio.calls);
      if r.ok {
        var cs := r.gpio.calls;
        assert cs == g.calls + setup;
        assert cs[..|cs|] == cs;
        assert cs[|cs| - 3..|cs|] == Configures();
      }
    }
  }

  /** A log that extends a set-up-only log by part of a set-up-only sequence is set-up only. */
  lemma SetupOnlyPrefix(a: seq<GpioCall>, b: seq<GpioCall>, cs: seq<GpioCall>)
    requires SetupOnly(a) && SetupOnly(b) && a <= cs <= a + b
    ensures SetupOnly(cs)
  {
  }

  lemma StepDisciplined(cfg: GpioConfig, g: Gpio, op: Op)
    requires Valid(cfg, g) && Disciplined(g)
    ensures Disciplined(Step(cfg, g, op))
  {
    InitDisciplined(cfg, g, op.drv);
    var init := InitDevices(cfg, g, op.drv).gpio;
    var r := Step(cfg, g, op);
    if init.initDone {
      match op
      case InitOp(_) =>
      case ToggleOp(chip, pin, value, drv, setRet) =>
        ConfiguredFirstExtends(init.calls, r.calls);
      case ReceiveOp(chip, pin, drv, level) =>
        ConfiguredFirstExtends(init.calls, r.calls);
      case ListenOp(chip, pin, timeout, drv, level) =>
        ConfiguredFirstExtends(init.calls, r.calls);
    } else {
      assert r == init;
    }
  }

  /**
   * From start-up, whatever the calls and whatever the drivers return, no pin
   * is set or read unless the three configure calls were all made before it,
   * with no pin I/O in between.
   */
  lemma {:induction false} NoPinIoBeforeConfigured(cfg: GpioConfig, g: Gpio, ops: seq<Op>)
    requires Valid(cfg, g) && Disciplined(g)
    ensures Disciplined(Run(cfg, g, ops))
    ensures var r := Run(cfg, g, ops);
            forall i :: 0 <= i < |r.calls| && PinIo(r.calls[i]) ==>
              exists n :: 3 <= n <= i && SetupOnly(r.calls[..n]) && r.calls[n - 3..n] == Configures()
    decreases |ops|
  {
    if ops != [] {
      StepDisciplined(cfg, g, ops[0]);
      NoPinIoBeforeConfigured(cfg, Step(cfg, g, ops[0]), ops[1..]);
    } else if g.initDone {
      var n :| 3 <= n <= |g.calls| && g.calls[n - 3..n] == Configures() && SetupOnly(g.calls[..n]);
      forall i | 0 <= i < |g.calls| && PinIo(g.calls[i])
        ensures exists n :: 3 <= n <= i && SetupOnly(g.calls[..n]) && g.calls[n - 3..n] == Configures()
      {
        if i < n {
          assert g.calls[i] in g.calls[..n];
        }
      }
    }
  }

  /** Once initialised, a call only drives or reads pins: nothing is looked up or configured again. */
  lemma StepAfterInit(cfg: GpioConfig, g: Gpio, op: Op)
    requires Valid(cfg, g) && g.initDone
    ensures var r := Step(cfg, g, op);
            r.initDone && forall c | c in r.calls[|g.calls|..] :: PinIo(c)
  {
  }

  /**
   * After a successful `init_gpio_devices`, every later call keeps the
   * binding initialised and adds only pin I/O to the log.
   */
  lemma {:induction false} SetupOnce(cfg: GpioConfig, g: Gpio, ops: seq<Op>)
    requires Valid(cfg, g) && g.initDone
    ensures var r := Run(cfg, g, ops);
            r.initDone && g.calls <= r.calls && forall c | c in r.calls[|g.calls|..] :: PinIo(c)
    decreases |ops|
  {
    if ops != [] {
      var s := Step(cfg, g, ops[0]);
      StepAfterInit(cfg, g, ops[0]);
      SetupOnce(cfg, s, ops[1..]);
      var r := Run(cfg, s, ops[1..]);
      assert r.calls[|g.calls|..] == s.calls[|g.calls|..] + r.calls[|s.calls|..];
    }
  }

  /** The start-up state satisfies the log invariant. */
  lemma InitialDisciplined(cfg: GpioConfig)
    ensures Disciplined(Initial(cfg))
  {
  }
}

=== FILE: gpio_zephyr.dfy ===
/**
 * The GPIO binding of zephyr/gpio_zephyr.c as an object whose fields are the
 * file's statics, plus the kernel's uptime clock that the boot wait reads.
 * Every method is proved to compute the function of the same C function in
 * module GpioModel, applied to the state before the call.
 */
module GpioZephyr {
  import opened Common
  import opened GpioModel

  /** The kernel's monotonic uptime (`k_uptime_get`), in milliseconds; only `k_msleep` advances it. */
  class Clock {
    var now: int

    constructor (start: int)
      ensures now == start
    {
      now := start;
    }

    /** `k_msleep`. */
    method Sleep(ms: nat)
      modifies this
      ensures now == old(now) + ms
    {
      now := now + ms;
    }
  }

  class ZephyrGpio {
    /** The build configuration (`CONFIG_IRIDIUM_*`). */
    const cfg: GpioConfig
    var gpioInitDone: bool
    var powerEnableDev: Option<seq<char>>
    var iridiumEnableDev: Option<seq<char>>
    var bootDev: Option<seq<char>>
    var powerEnablePin: PinSpec
    var iridiumEnablePin: PinSpec
    var bootPin: PinSpec
    /** The driver calls made so far, oldest first. */
    var calls: seq<GpioCall>

    function Model(): Gpio
      reads this
    {
      Gpio(gpioInitDone, powerEnableDev, iridiumEnableDev, bootDev,
           powerEnablePin, iridiumEnablePin, bootPin, calls)
    }

    ghost predicate Valid()
      reads this
    {
      GpioModel.Valid(cfg, Model())
    }

    constructor (config: GpioConfig)
      ensures Valid() && cfg == config
      ensures Model() == Initial(config)
    {
      cfg := config;
      gpioInitDone := false;
      powerEnableDev, iridiumEnableDev, bootDev := None, None, None;
      powerEnablePin := PinSpec(None, config.powerPin);
      iridiumEnablePin := PinSpec(None, config.iridiumPin);
      bootPin := PinSpec(None, config.bootPin);
      calls := [];
    }

    /** `init_gpio_devices`. */
    method InitGpioDevices(drv: GpioDriver) returns (ok: bool)
      requires Valid()
      modifies this
      ensures Valid()
      ensures Model() == InitDevices(cfg, old(Model()), drv).gpio
      ensures ok == InitDevices(cfg, old(Model()), drv).ok
    {
      if gpioInitDone {
        return true;
      }
      ghost var g := Model();
      ghost var r := InitDevices(cfg, g, drv);

      calls := calls + [Lookup(cfg.powerChip)];
      powerEnableDev := if drv.powerFound then Some(cfg.powerChip) else None;
      calls := calls + [Lookup(cfg.iridiumChip)];
      iridiumEnableDev := if drv.iridiumFound then Some(cfg.iridiumChip) else None;
      calls := calls + [Lookup(cfg.bootChip)];
      bootDev := if drv.bootFound then Some(cfg.bootChip) else None;
      assert calls == g.calls + Lookups(cfg);
      ghost var g1 := Model();
      if powerEnableDev.None? || iridiumEnableDev.None? || bootDev.None? {
        return false;
      }

      powerEnablePin := powerEnablePin.(port := powerEnableDev);
      iridiumEnablePin := iridiumEnablePin.(port := iridiumEnableDev);
      bootPin := bootPin.(port := bootDev);
      assert g1.powerDev.Some? && g1.iridiumDev.Some? && g1.bootDev.Some?;

      calls := calls + [PinConfigure(PowerEnable, OutputInactive)];
      if drv.powerCfgRet < 0 {
        return false;
      }
      calls := calls + [PinConfigure(IridiumEnable, OutputInactive)];
      if drv.iridiumCfgRet < 0 {
        return false;
      }
      calls := calls + [PinConfigure(Booted, Input)];
      if drv.bootCfgRet < 0 {
        return false;
      }

      gpioInitDone := true;
      return true;
    }

    /** `gpioToggle`. */
    method Toggle(chip: seq<char>, pin: int, value: int, drv: GpioDriver, setRet: int) returns (ok: bool)
      requires Valid()
      modifies this
      ensures Valid()
      ensures Model() == GpioModel.Toggle(cfg, old(Model()), drv, chip, pin, value, setRet).gpio
      ensures ok == GpioModel.Toggle(cfg, old(Model()), drv, chip, pin, value, setRet).ok
    {
      var init := InitGpioDevices(drv);
      if !init {
        return false;
      }
      var role: Option<Role> := None;
      if pin == cfg.powerPin {
        role := Some(PowerEnable);
      } else if pin == cfg.iridiumPin {
        role := Some(IridiumEnable);
      } else if pin == cfg.bootPin {
        role := Some(Booted);
      }
      if role.None? {
        return false;
      }
      calls := calls + [PinSet(role.value, value)];
      return setRet == 0;
    }

    /** `gpioDriveHigh`. */
    method DriveHigh(chip: seq<char>, pin: int, drv: GpioDriver, setRet: int) returns (ok: bool)
      requires Valid()
      modifies this
      ensures Valid()
      ensures Model() == GpioModel.Toggle(cfg, old(Model()), drv, chip, pin, 1, setRet).gpio
      ensures ok == GpioModel.Toggle(cfg, old(Model()), drv, chip, pin, 1, setRet).ok
    {
      ok := Toggle(chip, pin, 1, drv, setRet);
    }

    /** `gpioDriveLow`. */
    method DriveLow(chip: seq<char>, pin: int, drv: GpioDriver, setRet: int) returns (ok: bool)
      requires Valid()
      modifies this
      ensures Valid()
      ensures Model() == GpioModel.Toggle(cfg, old(Model()), drv, chip, pin, 0, setRet).gpio
      ensures ok == GpioModel.Toggle(cfg, old(Model()), drv, chip, pin, 0, setRet).ok
    {
      ok := Toggle(chip, pin, 0, drv, setRet);
    }

    /** `gpioReceive`. */
    method Receive(chip: seq<char>, pin: int, drv: GpioDriver, level: int) returns (value: int)
      requires Valid()
      modifies this
      ensures Valid()
      ensures Model() == GpioModel.Receive(cfg, old(Model()), drv, chip, pin, level).gpio
      ensures value == GpioModel.Receive(cfg, old(Model()), drv, chip, pin, level).value
    {
      var init := InitGpioDevices(drv);
      if !init {
        return -1;
      }
      if pin != cfg.bootPin {
        return -1;
      }
      calls := calls + [PinGet(Booted)];
      return level;
    }

    /** `gpioListenIridBooted`: polls the boot pin every 10 ms until it reads 1 or the timeout passes. */
    method ListenIridBooted(chip: seq<char>, pin: int, timeout: int32, drv: GpioDriver,
                            level: nat -> int, clock: Clock) returns (booted: bool)
      requires Valid()
      modifies this, clock
      ensures Valid()
      ensures Model() == Listen(cfg, old(Model()), drv, chip, pin, timeout, level).gpio
      ensures booted == Listen(cfg, old(Model()), drv, chip, pin, timeout, level).booted
      ensures clock.now == old(clock.now) + Listen(cfg, old(Model()), drv, chip, pin, timeout, level).elapsed
    {
      var init := InitGpioDevices(drv);
      if !init {
        return false;
      }
      ghost var ready := Model();
      var startTime := clock.now;
      var timeoutMs := timeout * 1000;
      ghost var polls := Polls(timeout);
      var k: nat := 0;
      while clock.now - startTime < timeoutMs
        invariant k <= polls && clock.now == startTime + POLL_MS * k
        invariant pin == cfg.bootPin ==> forall j :: 0 <= j < k ==> level(j) != 1
        invariant Valid() && gpioInitDone
        invariant pin == cfg.bootPin ==> Model() == ready.(calls := ready.calls + Gets(k))
        invariant pin != cfg.bootPin ==> Model() == ready
        decreases timeoutMs - (clock.now - startTime)
      {
        var value := Receive(chip, pin, drv, level(k));
        if value == 1 {
          assert FirstHigh(level, 0, polls) == k by {
            FirstHighIsFirst(level, polls, k);
          }
          assert ready.calls + Gets(k) + [PinGet(Booted)] == ready.calls + Gets(k + 1);
          return true;
        }
        assert pin == cfg.bootPin ==> level(k) != 1;
        clock.Sleep(POLL_MS);
        assert pin == cfg.bootPin ==> ready.calls + Gets(k) + [PinGet(Booted)] == ready.calls + Gets(k + 1);
        k := k + 1;
      }
      assert k == polls;
      if pin == cfg.bootPin {
        assert FirstHigh(level, 0, polls) == polls by {
          FirstHighIsFirst(level, polls, polls);
        }
      }
      return false;
    }
  }
}

=== FILE: ring_buf.dfy ===
/**
 * The receive queue of the serial backend: Zephyr's `ring_buf`, seen only
 * through what the backend uses of it (`ring_buf_init`, `ring_buf_put`,
 * `ring_buf_get`, `ring_buf_size_get`). Its storage is abstracted to the
 * sequence of queued bytes, oldest first, bounded by a capacity.
 */
module RingBuf {
  import opened Common

  datatype PutResult = PutResult(queue: seq<byte>, accepted: nat)
  datatype GetResult = GetResult(out: seq<byte>, queue: seq<byte>)

  /**
   * `ring_buf_put`: append as much of `chunk` as there is free space for.
   * The excess is dropped (the newest bytes are lost, queued ones never are).
   */
  function Put(q: seq<byte>, capacity: nat, chunk: seq<byte>): (r: PutResult)
    requires |q| <= capacity
    ensures r.accepted <= |chunk| && r.queue == q + chunk[..r.accepted]
    ensures |r.queue| <= capacity
    ensures r.accepted == |chunk| || |r.queue| == capacity
  {
    var n := Min(|chunk|, capacity - |q|);
    PutResult(q + chunk[..n], n)
  }

  /**
   * `ring_buf_get`: remove up to `n` bytes from the front. It never blocks:
   * it hands out what is queued, possibly nothing.
   */
  function Get(q: seq<byte>, n: nat): (r: GetResult)
    ensures r.out + r.queue == q
    ensures |r.out| == Min(n, |q|)
  {
    var k := Min(n, |q|);
    GetResult(q[..k], q[k..])
  }

  /** The concatenation of a sequence of chunks. */
  function Concat(chunks: seq<seq<byte>>): (s: seq<byte>)
  {
    if chunks == [] then [] else chunks[0] + Concat(chunks[1..])
  }

  /** Successive `ring_buf_put` calls, one per chunk. */
  function PutAll(q: seq<byte>, capacity: nat, chunks: seq<seq<byte>>): (r: seq<byte>)
    requires |q| <= capacity
    ensures |r| <= capacity
    ensures q <= r
    decreases |chunks|
  {
    if chunks == [] then q
    else PutAll(Put(q, capacity, chunks[0]).queue, capacity, chunks[1..])
  }

  /** While everything fits, successive puts lose nothing and keep the order. */
  lemma {:induction false} PutAllWithinCapacity(q: seq<byte>, capacity: nat, chunks: seq<seq<byte>>)
    requires |q| + |Concat(chunks)| <= capacity
    ensures PutAll(q, capacity, chunks) == q + Concat(chunks)
    decreases |chunks|
  {
    if chunks != [] {
      var r := Put(q, capacity, chunks[0]);
      assert |Concat(chunks)| == |chunks[0]| + |Concat(chunks[1..])|;
      assert r.queue == q + chunks[0];
      PutAllWithinCapacity(r.queue, capacity, chunks[1..]);
      assert q + chunks[0] + Concat(chunks[1..]) == q + Concat(chunks);
    }
  }

  /**
   * FIFO: starting from an empty queue, puts whose total size is within the
   * capacity followed by one get of the whole capacity return exactly the
   * concatenation of what was put, and leave the queue empty.
   */
  lemma FifoRoundTrip(capacity: nat, chunks: seq<seq<byte>>)
    requires |Concat(chunks)| <= capacity
    ensures Get(PutAll([], capacity, chunks), capacity) == GetResult(Concat(chunks), [])
  {
    PutAllWithinCapacity([], capacity, chunks);
    assert [] + Concat(chunks) == Concat(chunks);
  }

  /** A put on a full queue is rejected outright: nothing is accepted, nothing is overwritten. */
  lemma PutOnFullRejects(q: seq<byte>, capacity: nat, chunk: seq<byte>)
    requires |q| == capacity
    ensures Put(q, capacity, chunk) == PutResult(q, 0)
  {
  }
}

=== FILE: serial_model.dfy ===
/**
 * The Zephyr serial backend of the RockBLOCK 9704 hardware layer, as pure
 * functions over the backend's whole state: the connection state, the bound
 * UART device, the UART line configuration, the receive queue, the serial
 * context record (port name buffer, baud, backend slots) and the log of
 * driver calls the backend has made. Each function is one C function of
 * src/serial_presets/serial_zephyr/serial_zephyr.c; the class in module
 * SerialZephyr is proved to compute exactly these.
 *
 * Driver calls are not executed: their return codes are inputs (a
 * `UartDriver` record, a `found` flag for `device_get_binding`), and the
 * calls themselves are appended to `calls`.
 */
module SerialModel {
  import opened Common
  import RingBuf

  /** Capacity of the receive queue (`RX_BUFFER_SIZE`). */
  const RX_BUFFER_SIZE: nat := 1024

  datatype SerialState = Open | Closed

  // Zephyr's `struct uart_config` and its enumerations.
  datatype Parity = ParityNone | ParityOdd | ParityEven | ParityMark | ParitySpace
  datatype StopBits = StopBits0_5 | StopBits1 | StopBits1_5 | StopBits2
  datatype DataBits = DataBits5 | DataBits6 | DataBits7 | DataBits8 | DataBits9
  datatype FlowCtrl = FlowCtrlNone | FlowCtrlRtsCts | FlowCtrlDtrDsr | FlowCtrlRs485
  datatype UartConfig = UartConfig(baudrate: uint32, parity: Parity, stopBits: StopBits,
                                   dataBits: DataBits, flowCtrl: FlowCtrl)

  /** The zero-initialised static `uart_cfg` (every enumeration at its value 0). */
  const ZeroConfig := UartConfig(0, ParityNone, StopBits0_5, DataBits5, FlowCtrlNone)

  /** The line settings `openPortZephyr` always uses: only the baud varies. */
  function LineConfig(baud: uint32): (c: UartConfig)
    ensures c.baudrate == baud && c.parity == ParityNone && c.stopBits == StopBits1
    ensures c.dataBits == DataBits8 && c.flowCtrl == FlowCtrlNone
  {
    UartConfig(baud, ParityNone, StopBits1, DataBits8, FlowCtrlNone)
  }

  /** Which backend's five operations fill the context's slots. */
  datatype Backend = Unbound | Zephyr

  /** Events the UART driver delivers to `uart_rx_callback`. */
  datatype UartEvent =
    | TxDone | TxAborted
    | RxRdy(buf: seq<byte>, offset: nat, len: nat)
    | RxBufRequest | RxBufReleased | RxDisabled | RxStopped

  /** The driver promises that a ready range lies inside its buffer. */
  predicate WellFormed(evt: UartEvent)
  {
    evt.RxRdy? ==> evt.offset + evt.len <= |evt.buf|
  }

  /** The bytes an RX_RDY event delivers. */
  function Delivered(evt: UartEvent): (d: seq<byte>)
    requires evt.RxRdy? && WellFormed(evt)
    ensures |d| == evt.len
    ensures forall i :: 0 <= i < evt.len ==> d[i] == evt.buf[evt.offset + i]
  {
    evt.buf[evt.offset..evt.offset + evt.len]
  }

  /** Calls the backend makes into the UART driver. */
  datatype DriverCall =
    | Configure(cfg: UartConfig)      // uart_configure
    | CallbackSet(installed: bool)    // uart_callback_set, with the callback or with NULL
    | RxEnable                        // uart_rx_enable
    | RxDisable                       // uart_rx_disable
    | PollOut(b: byte)                // uart_poll_out

  /** Return codes of the three driver calls `openPortZephyr` checks (0 is success). */
  datatype UartDriver = UartDriver(configureRet: int, callbackSetRet: int, rxEnableRet: int)

  predicate DriverOk(drv: UartDriver)
  {
    drv.configureRet == 0 && drv.callbackSetRet == 0 && drv.rxEnableRet == 0
  }

  /** The state of the backend and of the serial context it fills. */
  datatype Port = Port(
    state: SerialState,             // serialState
    uartDev: Option<seq<char>>,     // uart_dev: the bound device, by name, or NULL
    uartCfg: UartConfig,            // uart_cfg
    rxQueue: seq<byte>,             // rx_ring_buf, oldest byte first
    serialPort: seq<char>,          // context.serialPort, all SERIAL_PORT_LENGTH chars
    serialBaud: uint32,             // context.serialBaud
    backend: Backend,               // context.serialInit .. context.serialPeek
    calls: seq<DriverCall>)         // driver calls made so far

  /** The invariant every operation keeps. */
  predicate Valid(p: Port)
  {
    |p.serialPort| >= 1 && |p.rxQueue| <= RX_BUFFER_SIZE
  }

  datatype Outcome = Outcome(port: Port, ok: bool)
  datatype Counted = Counted(port: Port, n: int, data: seq<byte>)

  /** Start-up state: everything static is zero, the port is CLOSED, nothing is bound. */
  function Initial(portLength: nat): (p: Port)
    requires portLength >= 1
    ensures Valid(p) && p.state == Closed && p.uartDev == None && p.backend == Unbound
    ensures p.rxQueue == [] && p.calls == [] && |p.serialPort| == portLength
  {
    Port(Closed, None, ZeroConfig, [], seq(portLength, _ => '\0'), 0, Unbound, [])
  }

  // ---------------------------------------------------------------- C strings

  /** The C string held by a character buffer: everything before the first NUL. */
  function CString(s: seq<char>): (r: seq<char>)
    ensures r <= s && '\0' !in r
    ensures |r| < |s| ==> s[|r|] == '\0'
  {
    if s == [] || s[0] == '\0' then [] else [s[0]] + CString(s[1..])
  }

  lemma {:induction false} CStringOfTerminated(s: seq<char>, t: seq<char>)
    requires '\0' !in s && t != [] && t[0] == '\0'
    ensures CString(s + t) == s
  {
    if s != [] {
      assert (s + t)[1..] == s[1..] + t;
      CStringOfTerminated(s[1..], t);
    } else {
      assert s + t == t;
    }
  }

  /**
   * `context.serialPort` after `strncpy(context.serialPort, port,
   * SERIAL_PORT_LENGTH - 1)` and `context.serialPort[SERIAL_PORT_LENGTH - 1] = '\0'`:
   * the name, cut to `n - 1` characters, then NUL padding up to `n`.
   */
  function CopyPortName(port: seq<char>, n: nat): (buf: seq<char>)
    requires n >= 1
    ensures |buf| == n && buf[n - 1] == '\0'
    ensures CString(buf) == CString(port)[..Min(|CString(port)|, n - 1)]
  {
    var name := CString(port);
    var buf := seq(n, i requires 0 <= i < n => if i < n - 1 && i < |name| then name[i] else '\0');
    var k := Min(|name|, n - 1);
    assert buf == name[..k] + buf[k..];
    CStringOfTerminated(name[..k], buf[k..]);
    buf
  }

  // ------------------------------------------------------------ UART transmit

  /** The bytes put on the line, in order, by the `PollOut` calls of a call log. */
  function Transmitted(calls: seq<DriverCall>): (bs: seq<byte>)
    ensures |bs| <= |calls|
  {
    if calls == [] then []
    else
      var last := calls[|calls| - 1];
      Transmitted(calls[..|calls| - 1]) + (if last.PollOut? then [last.b] else [])
  }

  lemma {:induction false} TransmittedConcat(a: seq<DriverCall>, b: seq<DriverCall>)
    ensures Transmitted(a + b) == Transmitted(a) + Transmitted(b)
    decreases |b|
  {
    if b != [] {
      var last := b[|b| - 1];
      assert (a + b)[..|a + b| - 1] == a + b[..|b| - 1];
      TransmittedConcat(a, b[..|b| - 1]);
    } else {
      assert a + b == a;
    }
  }

  /** One `uart_poll_out` per byte, in order. */
  function PollOuts(bs: seq<byte>): (cs: seq<DriverCall>)
    ensures |cs| == |bs| && Transmitted(cs) == bs
    ensures forall c | c in cs :: c.PollOut?
  {
    if bs == [] then []
    else
      var init := PollOuts(bs[..|bs| - 1]);
      var cs := init + [PollOut(bs[|bs| - 1])];
      assert cs[..|cs| - 1] == init;
      assert bs == bs[..|bs| - 1] + [bs[|bs| - 1]];
      cs
  }

  // --------------------------------------------------------------- operations

  /**
   * The driver calls `openPortZephyr` makes on a bound CLOSED port: configure,
   * install the callback, enable reception, stopping after the first that fails.
   */
  function OpenAttempt(baud: uint32, drv: UartDriver): (cs: seq<DriverCall>)
    ensures 1 <= |cs| <= 3 && cs == [Configure(LineConfig(baud)), CallbackSet(true), RxEnable][..|cs|]
    ensures |cs| == 1 <==> drv.configureRet != 0
    ensures |cs| == 2 <==> drv.configureRet == 0 && drv.callbackSetRet != 0
    ensures |cs| == 3 <==> drv.configureRet == 0 && drv.callbackSetRet == 0
  {
    if drv.configureRet != 0 then [Configure(LineConfig(baud))]
    else if drv.callbackSetRet != 0 then [Configure(LineConfig(baud)), CallbackSet(true)]
    else [Configure(LineConfig(baud)), CallbackSet(true), RxEnable]
  }

  /** `openPortZephyr`. */
  function OpenPort(s: Port, drv: UartDriver): (r: Outcome)
    ensures r.ok <==> s.state == Open || (s.uartDev.Some? && DriverOk(drv))
    ensures r.port.state == (if r.ok then Open else s.state)
    ensures s.state == Open ==> r.port == s
    ensures r.port == s.(state := r.port.state, uartCfg := r.port.uartCfg, calls := r.port.calls)
    ensures s.state == Closed && s.uartDev.Some? ==> r.port.uartCfg == LineConfig(s.serialBaud)
    ensures s.state == Closed && s.uartDev.None? ==> r.port == s
    ensures s.state == Closed && s.uartDev.Some? ==> r.port.calls == s.calls + OpenAttempt(s.serialBaud, drv)
    ensures s.state == Closed && r.ok ==>
              r.port.calls == s.calls + [Configure(LineConfig(s.serialBaud)), CallbackSet(true), RxEnable]
    ensures Transmitted(r.port.calls) == Transmitted(s.calls)
  {
    if s.state == Open then Outcome(s, true)
    else if s.uartDev.None? then Outcome(s, false)
    else
      var cfg := LineConfig(s.serialBaud);
      var s1 := s.(uartCfg := cfg, calls := s.calls + [Configure(cfg)]);
      if drv.configureRet != 0 then Outcome(s1, false)
      else
        var s2 := s1.(calls := s1.calls + [CallbackSet(true)]);
        if drv.callbackSetRet != 0 then Outcome(s2, false)
        else
          var s3 := s2.(calls := s2.calls + [RxEnable]);
          if drv.rxEnableRet != 0 then Outcome(s3, false)
          else Outcome(s3.(state := Open), true)
  }

  /** `closePortZephyr`: always succeeds and always leaves the port CLOSED. */
  function ClosePort(s: Port): (r: Outcome)
    ensures r.ok && r.port.state == Closed
    ensures s.state == Closed ==> r.port == s
    ensures s.state == Open ==>
              r.port == s.(state := Closed,
                           calls := s.calls + if s.uartDev.Some? then [RxDisable, CallbackSet(false)] else [])
    ensures Transmitted(r.port.calls) == Transmitted(s.calls)
  {
    if s.state == Closed then Outcome(s, true)
    else if s.uartDev.Some? then
      TransmittedConcat(s.calls, [RxDisable, CallbackSet(false)]);
      Outcome(s.(state := Closed, calls := s.calls + [RxDisable, CallbackSet(false)]), true)
    else Outcome(s.(state := Closed), true)
  }

  /** `writeZephyr`: the first `length` bytes of `data`, one `uart_poll_out` each. */
  function WritePort(s: Port, data: seq<byte>, length: uint16): (r: Counted)
    requires length <= |data|
    ensures r.n == -1 <==> s.state != Open || s.uartDev.None?
    ensures r.n == -1 ==> r.port == s
    ensures r.n != -1 ==> r.n == length && r.port == s.(calls := r.port.calls)
    ensures r.n != -1 ==> r.port.calls == s.calls + PollOuts(data[..length])
    ensures r.n != -1 ==>
              (s.calls <= r.port.calls && Transmitted(r.port.calls) == Transmitted(s.calls) + data[..length])
    ensures r.data == []
  {
    if s.state != Open || s.uartDev.None? then Counted(s, -1, [])
    else
      var sent := PollOuts(data[..length]);
      TransmittedConcat(s.calls, sent);
      Counted(s.(calls := s.calls + sent), length, [])
  }

  /** `readZephyr`: `bufValid` is false when the caller passes a NULL buffer. */
  function ReadPort(s: Port, length: uint16, bufValid: bool): (r: Counted)
    ensures r.n == -1 <==> s.state != Open || !bufValid
    ensures r.n == -1 ==> r.port == s && r.data == []
    ensures r.n != -1 ==> r.n == |r.data| == Min(length, |s.rxQueue|)
    ensures r.n != -1 ==> r.data + r.port.rxQueue == s.rxQueue
    ensures r.port == s.(rxQueue := r.port.rxQueue)
  {
    if s.state != Open || !bufValid then Counted(s, -1, [])
    else
      var g := RingBuf.Get(s.rxQueue, length);
      Counted(s.(rxQueue := g.queue), |g.out|, g.out)
  }

  /** `peekZephyr`. */
  function PeekPort(s: Port): (r: int)
    ensures r == -1 <==> s.state != Open
    ensures r != -1 ==> r == |s.rxQueue|
    ensures Valid(s) ==> r <= RX_BUFFER_SIZE
  {
    if s.state != Open then -1 else |s.rxQueue|
  }

  /** `uart_rx_callback`. */
  function RxCallback(s: Port, evt: UartEvent): (r: Port)
    requires Valid(s) && WellFormed(evt)
    ensures Valid(r)
    ensures evt.RxRdy? ==>
              r == s.(rxQueue := RingBuf.Put(s.rxQueue, RX_BUFFER_SIZE, Delivered(evt)).queue)
    ensures evt.RxDisabled? ==> r == s.(calls := s.calls + [RxEnable])
    ensures !evt.RxRdy? && !evt.RxDisabled? ==> r == s
    ensures Transmitted(r.calls) == Transmitted(s.calls)
  {
    match evt
    case RxRdy(_, _, _) => s.(rxQueue := RingBuf.Put(s.rxQueue, RX_BUFFER_SIZE, Delivered(evt)).queue)
    case RxDisabled => s.(calls := s.calls + [RxEnable])
    case _ => s
  }

  /**
   * `setContextZephyr`: `found` is whether `device_get_binding(port)` found a
   * device; `drv` gives the driver's answers during the open-then-close self-test.
   */
  function SetContext(s: Port, port: seq<char>, baud: uint32, found: bool, drv: UartDriver): (r: Outcome)
    requires Valid(s)
    ensures Valid(r.port)
    ensures !found ==> r == Outcome(s.(uartDev := None), false)
    ensures found ==> r.port.uartDev == Some(port) && r.port.rxQueue == [] && r.port.state == Closed
    ensures found ==> r.port.serialBaud == baud && r.port.backend == Zephyr
    ensures found ==> r.port.serialPort == CopyPortName(port, |s.serialPort|)
    ensures found ==> (r.ok <==> s.state == Open || DriverOk(drv))
    ensures found && s.state == Open ==>
              r.port.uartCfg == s.uartCfg && r.port.calls == s.calls + [RxDisable, CallbackSet(false)]
    ensures found && s.state == Closed ==>
              r.port.uartCfg == LineConfig(baud) &&
              r.port.calls == s.calls + OpenAttempt(baud, drv) + (if r.ok then [RxDisable, CallbackSet(false)] else [])
    ensures Transmitted(r.port.calls) == Transmitted(s.calls)
  {
    if !found then Outcome(s.(uartDev := None), false)
    else
      var bound := s.(uartDev := Some(port), rxQueue := [],
                      serialPort := CopyPortName(port, |s.serialPort|),
                      serialBaud := baud, backend := Zephyr);
      var test := OpenPort(bound, drv);
      if test.ok then ClosePort(test.port) else Outcome(test.port, false)
  }

  // ---------------------------------------------------------------- properties

  /** Opening an open port again succeeds and changes nothing. */
  lemma OpenIdempotent(s: Port, d1: UartDriver, d2: UartDriver)
    requires OpenPort(s, d1).ok
    ensures OpenPort(OpenPort(s, d1).port, d2) == Outcome(OpenPort(s, d1).port, true)
  {
  }

  /** Closing twice is the same as closing once. */
  lemma CloseIdempotent(s: Port)
    ensures ClosePort(ClosePort(s).port) == ClosePort(s)
  {
  }

  /** The stored port name always fits its buffer, terminator included. */
  lemma PortNameBounded(s: Port, port: seq<char>, baud: uint32, drv: UartDriver)
    requires Valid(s)
    ensures var r := SetContext(s, port, baud, true, drv);
            |r.port.serialPort| == |s.serialPort| &&
            |CString(r.port.serialPort)| <= |s.serialPort| - 1 &&
            CString(r.port.serialPort) <= CString(port)
  {
  }
}

=== FILE: serial_trace.dfy ===
/**
 * Properties of the serial backend over whole sequences of calls: the
 * consumer's calls interleaved with the receive callback, as the Zephyr
 * driver delivers it between them.
 */
module SerialTrace {
  import opened Common
  import opened SerialModel
  import RingBuf

  /** One call into the backend, or one event delivered to its callback. */
  datatype Call =
    | SetContextCall(port: seq<char>, baud: uint32, found: bool, drv: UartDriver)
    | OpenCall(drv: UartDriver)
    | CloseCall
    | WriteCall(data: seq<byte>, length: uint16)
    | ReadCall(length: uint16, bufValid: bool)
    | PeekCall
    | Event(evt: UartEvent)

  /** What the caller (or the driver, for events) guarantees. */
  predicate Callable(c: Call)
  {
    (c.WriteCall? ==> c.length <= |c.data|) && (c.Event? ==> WellFormed(c.evt))
  }

  /**
   * What a call returns; `Sent` also names the bytes a write put on the line
   * and `Queued` the bytes an event added to the receive queue.
   */
  datatype Reply =
    | Flag(ok: bool)
    | Count(n: int)
    | Sent(n: int, data: seq<byte>)
    | Received(n: int, data: seq<byte>)
    | Queued(data: seq<byte>)

  datatype Stepped = Stepped(port: Port, reply: Reply)

  /** A reply that refuses service: -1 from write, read or peek. */
  predicate Refused(r: Reply)
  {
    (r.Count? || r.Sent? || r.Received?) ==> r.n == -1
  }

  /** One call; its contract is what each call does to the queue, the line and the state. */
  function Step(s: Port, c: Call): (r: Stepped)
    requires Valid(s) && Callable(c)
    ensures Valid(r.port)
    ensures r.reply.Received? <==> c.ReadCall?
    ensures r.reply.Queued? <==> c.Event?
    ensures r.reply.Sent? <==> c.WriteCall?
    ensures r.reply.Received? ==> s.rxQueue == r.reply.data + r.port.rxQueue
    ensures r.reply.Queued? ==> r.port.rxQueue == s.rxQueue + r.reply.data
    ensures !c.SetContextCall? && !c.ReadCall? && !c.Event? ==> r.port.rxQueue == s.rxQueue
    ensures c.SetContextCall? ==> r.port.rxQueue == (if c.found then [] else s.rxQueue)
    ensures c.WriteCall? ==>
              r.reply == Sent(WritePort(s, c.data, c.length).n,
                              if s.state == Open && s.uartDev.Some? then c.data[..c.length] else [])
    ensures c.Event? && !c.evt.RxRdy? ==> r.reply == Queued([]) && r.port.rxQueue == s.rxQueue
    ensures c.Event? && c.evt.RxRdy? ==>
              r.reply.data == Delivered(c.evt)[..RingBuf.Put(s.rxQueue, RX_BUFFER_SIZE, Delivered(c.evt)).accepted]
    ensures s.state == Closed && !c.OpenCall? ==> r.port.state == Closed && Refused(r.reply)
  {
    match c
    case SetContextCall(port, baud, found, drv) =>
      var o := SetContext(s, port, baud, found, drv);
      Stepped(o.port, Flag(o.ok))
    case OpenCall(drv) =>
      var o := OpenPort(s, drv);
      Stepped(o.port, Flag(o.ok))
    case CloseCall =>
      var o := ClosePort(s);
      Stepped(o.port, Flag(o.ok))
    case WriteCall(data, length) =>
      var w := WritePort(s, data, length);
      Stepped(w.port, Sent(w.n, if w.n == -1 then [] else data[..length]))
    case ReadCall(length, bufValid) =>
      var rd := ReadPort(s, length, bufValid);
      Stepped(rd.port, Received(rd.n, rd.data))
    case PeekCall =>
      Stepped(s, Count(PeekPort(s)))
    case Event(evt) =>
      var r := RxCallback(s, evt);
      var added := if evt.RxRdy? then r.rxQueue[|s.rxQueue|..] else [];
      assert r.rxQueue == s.rxQueue + added;
      Stepped(r, Queued(added))
  }

  datatype Trace = Trace(final: Port, replies: seq<Reply>)

  /** Run the calls in order; the queue bound holds after every one of them. */
  function Run(s: Port, cs: seq<Call>): (t: Trace)
    requires Valid(s) && forall c | c in cs :: Callable(c)
    ensures Valid(t.final) && |t.replies| == |cs|
    decreases |cs|
  {
    if cs == [] then Trace(s, [])
    else
      var st := Step(s, cs[0]);
      var rest := Run(st.port, cs[1..]);
      Trace(rest.final, [st.reply] + rest.replies)
  }

  /** The bytes handed to the consumer by the reads, in order. */
  function Drained(rs: seq<Reply>): seq<byte>
  {
    if rs == [] then [] else (if rs[0].Received? then rs[0].data else []) + Drained(rs[1..])
  }

  /** The bytes the callback added to the queue, in order. */
  function Enqueued(rs: seq<Reply>): seq<byte>
  {
    if rs == [] then [] else (if rs[0].Queued? then rs[0].data else []) + Enqueued(rs[1..])
  }

  /** The bytes the writes put on the line, in order. */
  function Written(rs: seq<Reply>): seq<byte>
  {
    if rs == [] then [] else (if rs[0].Sent? then rs[0].data else []) + Written(rs[1..])
  }

  /**
   * No byte is lost, duplicated or reordered between the callback and the
   * consumer: what was queued before plus what the callback accepted equals
   * what the reads returned plus what is still queued. (Binding a port
   * empties the queue, so the calls do not rebind.)
   */
  lemma {:induction false} QueueConservation(s: Port, cs: seq<Call>)
    requires Valid(s) && forall c | c in cs :: Callable(c)
    requires forall c | c in cs :: !c.SetContextCall?
    ensures var t := Run(s, cs);
            s.rxQueue + Enqueued(t.replies) == Drained(t.replies) + t.final.rxQueue
    decreases |cs|
  {
    if cs != [] {
      var st := Step(s, cs[0]);
      var rest := Run(st.port, cs[1..]);
      var rs := [st.reply] + rest.replies;
      assert Run(s, cs) == Trace(rest.final, rs);
      assert rs[0] == st.reply && rs[1..] == rest.replies;
      var added := if st.reply.Queued? then st.reply.data else [];
      var taken := if st.reply.Received? then st.reply.data else [];
      assert s.rxQueue + added == taken + st.port.rxQueue;
      QueueConservation(st.port, cs[1..]);
      assert Enqueued(rs) == added + Enqueued(rest.replies);
      assert Drained(rs) == taken + Drained(rest.replies);
      Regroup(s.rxQueue, added, taken, st.port.rxQueue, Enqueued(rest.replies),
              Drained(rest.replies), rest.final.rxQueue);
    }
  }

  /** Sequence arithmetic for one step of QueueConservation. */
  lemma Regroup<T>(q: seq<T>, added: seq<T>, taken: seq<T>, q1: seq<T>,
                   later: seq<T>, drained: seq<T>, q2: seq<T>)
    requires q + added == taken + q1 && q1 + later == drained + q2
    ensures q + (added + later) == (taken + drained) + q2
  {
    calc {
      q + (added + later);
      (q + added) + later;
      (taken + q1) + later;
      taken + (q1 + later);
      taken + (drained + q2);
    }
  }

  /** Only a write puts bytes on the line, and exactly the bytes it reports. */
  lemma StepTransmits(s: Port, c: Call)
    requires Valid(s) && Callable(c)
    ensures var st := Step(s, c);
            Transmitted(st.port.calls) == Transmitted(s.calls) + (if st.reply.Sent? then st.reply.data else [])
  {
  }

  /** The line carries exactly the bytes of the successful writes, in order. */
  lemma {:induction false} TransmitLog(s: Port, cs: seq<Call>)
    requires Valid(s) && forall c | c in cs :: Callable(c)
    ensures var t := Run(s, cs);
            Transmitted(t.final.calls) == Transmitted(s.calls) + Written(t.replies)
    decreases |cs|
  {
    if cs != [] {
      var st := Step(s, cs[0]);
      var rest := Run(st.port, cs[1..]);
      var rs := [st.reply] + rest.replies;
      assert Run(s, cs) == Trace(rest.final, rs);
      assert rs[0] == st.reply && rs[1..] == rest.replies;
      var sent := if st.reply.Sent? then st.reply.data else [];
      StepTransmits(s, cs[0]);
      TransmitLog(st.port, cs[1..]);
      assert Written(rs) == sent + Written(rest.replies);
      assert Transmitted(st.port.calls) == Transmitted(s.calls) + sent;
      Append3(Transmitted(s.calls), sent, Written(rest.replies));
    }
  }

  /** Regrouping for one step of TransmitLog, proved apart from that lemma's large context. */
  lemma Append3<T>(a: seq<T>, b: seq<T>, c: seq<T>)
    ensures (a + b) + c == a + (b + c)
  {
  }

  /**
   * Until a successful open, nothing gets through: from a CLOSED port, calls
   * that include no open (binding, with its self-test, is allowed) leave the
   * port CLOSED and every write, read and peek returns -1.
   */
  lemma {:induction false} RefusedUntilOpened(s: Port, cs: seq<Call>)
    requires Valid(s) && s.state == Closed && forall c | c in cs :: Callable(c)
    requires forall c | c in cs :: !c.OpenCall?
    ensures var t := Run(s, cs);
            t.final.state == Closed && forall r | r in t.replies :: Refused(r)
    decreases |cs|
  {
    if cs != [] {
      var st := Step(s, cs[0]);
      assert st.port.state == Closed && Refused(st.reply);
      RefusedUntilOpened(st.port, cs[1..]);
    }
  }

  /** Running one sequence of calls after another. */
  lemma {:induction false} RunAppend(s: Port, a: seq<Call>, b: seq<Call>)
    requires Valid(s) && (forall c | c in a :: Callable(c)) && (forall c | c in b :: Callable(c))
    ensures forall c | c in a + b :: Callable(c)
    ensures var ta := Run(s, a);
            var tb := Run(ta.final, b);
            Run(s, a + b) == Trace(tb.final, ta.replies + tb.replies)
    decreases |a|
  {
    if a == [] {
      assert a + b == b;
    } else {
      var st := Step(s, a[0]);
      assert (a + b)[0] == a[0] && (a + b)[1..] == a[1..] + b;
      RunAppend(st.port, a[1..], b);
      var ta := Run(st.port, a[1..]);
      var tb := Run(ta.final, b);
      assert [st.reply] + (ta.replies + tb.replies) == ([st.reply] + ta.replies) + tb.replies;
    }
  }

  /** With a healthy driver, binding succeeds and leaves a bound, CLOSED port with an empty queue. */
  lemma BindHealthy(s: Port, port: seq<char>, baud: uint32, drv: UartDriver)
    requires Valid(s) && DriverOk(drv)
    ensures var b := SetContext(s, port, baud, true, drv);
            b.ok && b.port.state == Closed && b.port.uartDev == Some(port) && b.port.rxQueue == []
  {
  }

  /** Scenario, first part: bind at 9600 baud and open. */
  lemma BindThenOpen(s: Port, port: seq<char>, drv: UartDriver)
    requires Valid(s) && DriverOk(drv)
    ensures var t := Run(s, [SetContextCall(port, 9600, true, drv), OpenCall(drv)]);
            t.replies == [Flag(true), Flag(true)] &&
            t.final.state == Open && t.final.uartDev.Some? && t.final.rxQueue == []
  {
    var cs := [SetContextCall(port, 9600, true, drv), OpenCall(drv)];
    BindHealthy(s, port, 9600, drv);
    var p0 := Step(s, cs[0]);
    assert cs[1..] == [OpenCall(drv)];
    var p1 := Step(p0.port, cs[1]);
    assert Run(p0.port, cs[1..]) == Trace(p1.port, [p1.reply]);
  }

  /** Scenario, second part: five bytes arrive; peek, then read three. */
  lemma ReceiveFive(s: Port, rx: seq<byte>)
    requires Valid(s) && s.state == Open && s.rxQueue == [] && |rx| == 5
    ensures var t := Run(s, [Event(RxRdy(rx, 0, 5)), PeekCall, ReadCall(3, true)]);
            t.replies == [Queued(rx), Count(5), Received(3, rx[..3])] &&
            t.final == s.(rxQueue := rx[3..])
  {
    var cs := [Event(RxRdy(rx, 0, 5)), PeekCall, ReadCall(3, true)];
    var q := s.(rxQueue := rx);
    QueueFive(s, rx);
    assert Step(q, PeekCall) == Stepped(q, Count(5));
    ReadThree(q, rx);
    var p2 := Step(q, cs[2]);
    assert cs[1..] == [PeekCall, ReadCall(3, true)] && cs[1..][1..] == [ReadCall(3, true)];
    assert Run(q, cs[1..][1..]) == Trace(p2.port, [p2.reply]);
  }

  /** Five delivered bytes all fit an empty queue. */
  lemma QueueFive(s: Port, rx: seq<byte>)
    requires Valid(s) && s.state == Open && s.rxQueue == [] && |rx| == 5
    ensures Step(s, Event(RxRdy(rx, 0, 5))) == Stepped(s.(rxQueue := rx), Queued(rx))
  {
    assert rx[0..5] == rx;
  }

  /** Reading three of five queued bytes returns the first three. */
  lemma ReadThree(q: Port, rx: seq<byte>)
    requires Valid(q) && q.state == Open && q.rxQueue == rx && |rx| == 5
    ensures Step(q, ReadCall(3, true)) == Stepped(q.(rxQueue := rx[3..]), Received(3, rx[..3]))
  {
  }

  /** Scenario, third part: peek, read up to ten (two come), peek again. */
  lemma DrainRest(s: Port, rest: seq<byte>)
    requires Valid(s) && s.state == Open && s.rxQueue == rest && |rest| == 2
    ensures var t := Run(s, [PeekCall, ReadCall(10, true), PeekCall]);
            t.replies == [Count(2), Received(2, rest), Count(0)] && t.final == s.(rxQueue := [])
  {
    var cs := [PeekCall, ReadCall(10, true), PeekCall];
    assert rest[..2] == rest;
    var p0 := Step(s, cs[0]);
    var p1 := Step(p0.port, cs[1]);
    var p2 := Step(p1.port, cs[2]);
    assert cs[1..] == [ReadCall(10, true), PeekCall] && cs[1..][1..] == [PeekCall];
    assert Run(p1.port, cs[1..][1..]) == Trace(p2.port, [p2.reply]);
  }

  /** Scenario, last part: a write goes out while OPEN and is refused once CLOSED. */
  lemma WriteThenClose(s: Port, data: seq<byte>, length: uint16)
    requires Valid(s) && s.state == Open && s.uartDev.Some? && length <= |data|
    ensures Run(s, [WriteCall(data, length), CloseCall, WriteCall(data, length)]).replies
            == [Sent(length, data[..length]), Flag(true), Sent(-1, [])]
  {
    var cs := [WriteCall(data, length), CloseCall, WriteCall(data, length)];
    var p0 := Step(s, cs[0]);
    WriteWhileOpen(s, data, length);
    var p1 := Step(p0.port, cs[1]);
    CloseWhileOpen(p0.port);
    var p2 := Step(p1.port, cs[2]);
    assert p2.reply == Sent(-1, []);
    assert cs[1..] == [CloseCall, WriteCall(data, length)] && cs[1..][1..] == [WriteCall(data, length)];
    assert Run(p1.port, cs[1..][1..]) == Trace(p2.port, [p2.reply]);
  }

  /** A write on an OPEN port with a device sends all of its bytes and leaves the port OPEN. */
  lemma WriteWhileOpen(s: Port, data: seq<byte>, length: uint16)
    requires Valid(s) && s.state == Open && s.uartDev.Some? && length <= |data|
    ensures var p := Step(s, WriteCall(data, length));
            p.reply == Sent(length, data[..length]) && p.port.state == Open
  {
  }

  /** Closing an OPEN port succeeds and leaves it CLOSED. */
  lemma CloseWhileOpen(s: Port)
    requires Valid(s) && s.state == Open
    ensures var p := Step(s, CloseCall);
            p.reply == Flag(true) && p.port.state == Closed
  {
  }

  /**
   * Scenario, second and third parts together: five bytes arrive and are
   * drained by reads of 3 and 10, with peeks reporting 5, 2 and 0.
   */
  lemma ReceiveThenDrain(s: Port, rx: seq<byte>)
    requires Valid(s) && s.state == Open && s.rxQueue == [] && |rx| == 5
    ensures var t := Run(s, [Event(RxRdy(rx, 0, 5)), PeekCall, ReadCall(3, true)] +
                            [PeekCall, ReadCall(10, true), PeekCall]);
            t.replies == [Queued(rx), Count(5), Received(3, rx[..3]), Count(2), Received(2, rx[3..]), Count(0)] &&
            t.final == s
  {
    var receive := [Event(RxRdy(rx, 0, 5)), PeekCall, ReadCall(3, true)];
    var drain := [PeekCall, ReadCall(10, true), PeekCall];
    ReceiveFive(s, rx);
    DrainRest(Run(s, receive).final, rx[3..]);
    RunAppend(s, receive, drain);
  }
}

=== FILE: serial_zephyr.dfy ===
/**
 * The serial backend of src/serial_presets/serial_zephyr/serial_zephyr.c as
 * an object whose fields are the file's static state (`uart_dev`, `uart_cfg`,
 * `rx_ring_buf`), the shared `serialState` and the `context` record it
 * fills. Every method is proved to compute the function of the same C
 * function in module SerialModel, applied to the state before the call.
 */
module SerialZephyr {
  import opened Common
  import opened SerialModel
  import RingBuf

  class ZephyrSerial {
    var state: SerialState
    var uartDev: Option<seq<char>>
    var uartCfg: UartConfig
    var rxQueue: seq<byte>
    /** `context.serialPort`, a buffer of SERIAL_PORT_LENGTH characters. */
    const serialPort: array<char>
    var serialBaud: uint32
    var backend: Backend
    /** The driver calls made so far, oldest first. */
    var calls: seq<DriverCall>

    /** The abstract value of the whole backend state. */
    function Model(): Port
      reads this, serialPort
    {
      Port(state, uartDev, uartCfg, rxQueue, serialPort[..], serialBaud, backend, calls)
    }

    ghost predicate Valid()
      reads this, serialPort
    {
      SerialModel.Valid(Model())
    }

    /** The process's start-up state; `portLength` is SERIAL_PORT_LENGTH. */
    constructor (portLength: nat)
      requires portLength >= 1
      ensures Valid() && fresh(serialPort)
      ensures Model() == Initial(portLength)
    {
      state := Closed;
      uartDev := None;
      uartCfg := ZeroConfig;
      rxQueue := [];
      serialPort := new char[portLength](_ => '\0');
      serialBaud := 0;
      backend := Unbound;
      calls := [];
    }

    /** `uart_rx_callback`, run between two calls of the consumer. */
    method RxCallback(evt: UartEvent)
      requires Valid() && WellFormed(evt)
      modifies this
      ensures Valid()
      ensures Model() == SerialModel.RxCallback(old(Model()), evt)
    {
      match evt
      case RxRdy(buf, offset, len) =>
        var put := RingBuf.Put(rxQueue, RX_BUFFER_SIZE, buf[offset..offset + len]);
        rxQueue := put.queue;
      case RxDisabled =>
        calls := calls + [RxEnable];
      case _ =>
    }

    /** `setContextZephyr`. */
    method SetContext(port: seq<char>, baud: uint32, found: bool, drv: UartDriver) returns (ok: bool)
      requires Valid()
      modifies this, serialPort
      ensures Valid()
      ensures Model() == SerialModel.SetContext(old(Model()), port, baud, found, drv).port
      ensures ok == SerialModel.SetContext(old(Model()), port, baud, found, drv).ok
    {
      if !found {
        uartDev := None;
        return false;
      }
      ghost var r := SerialModel.SetContext(old(Model()), port, baud, found, drv);
      Bind(port, baud);
      ghost var test := SerialModel.OpenPort(Model(), drv);
      assert r == if test.ok then SerialModel.ClosePort(test.port) else Outcome(test.port, false);

      // self-test: open, then close
      ok := OpenPort(drv);
      if ok {
        ok := ClosePort();
      }
    }

    /** The binding half of `setContextZephyr`: device, fresh queue, name, baud and operations. */
    method Bind(port: seq<char>, baud: uint32)
      requires Valid()
      modifies this, serialPort
      ensures Valid()
      ensures Model() == old(Model()).(uartDev := Some(port), rxQueue := [],
                                       serialPort := CopyPortName(port, serialPort.Length),
                                       serialBaud := baud, backend := Zephyr)
    {
      uartDev := Some(port);
      rxQueue := [];
      StoreName(port);
      serialBaud := baud;
      backend := Zephyr;
    }

    /**
     * `strncpy(context.serialPort, port, SERIAL_PORT_LENGTH - 1)`, then the
     * terminator in the last cell.
     */
    method StoreName(port: seq<char>)
      requires serialPort.Length >= 1
      modifies serialPort
      ensures serialPort[..] == CopyPortName(port, serialPort.Length)
    {
      var n := serialPort.Length;
      ghost var copied := CopyPortName(port, n);
      var name := CString(port);
      var i := 0;
      while i < n - 1
        invariant 0 <= i <= n - 1
        invariant forall k :: 0 <= k < i ==> serialPort[k] == copied[k]
      {
        serialPort[i] := if i < |name| then name[i] else '\0';
        i := i + 1;
      }
      serialPort[n - 1] := '\0';
      assert serialPort[..] == copied;
    }

    /** `openPortZephyr`. */
    method OpenPort(drv: UartDriver) returns (ok: bool)
      requires Valid()
      modifies this
      ensures Valid()
      ensures Model() == SerialModel.OpenPort(old(Model()), drv).port
      ensures ok == SerialModel.OpenPort(old(Model()), drv).ok
    {
      if state == Open {
        return true;
      }
      if uartDev.None? {
        return false;
      }
      uartCfg := LineConfig(serialBaud);
      calls := calls + [Configure(uartCfg)];
      if drv.configureRet != 0 {
        return false;
      }
      calls := calls + [CallbackSet(true)];
      if drv.callbackSetRet != 0 {
        return false;
      }
      calls := calls + [RxEnable];
      if drv.rxEnableRet != 0 {
        return false;
      }
      state := Open;
      return true;
    }

    /** `closePortZephyr`. */
    method ClosePort() returns (ok: bool)
      requires Valid()
      modifies this
      ensures Valid()
      ensures Model() == SerialModel.ClosePort(old(Model())).port
      ensures ok
    {
      if state == Closed {
        return true;
      }
      if uartDev.Some? {
        calls := calls + [RxDisable];
        calls := calls + [CallbackSet(false)];
      }
      state := Closed;
      return true;
    }

    /** `writeZephyr`: blocking, one `uart_poll_out` per byte. */
    method Write(data: seq<byte>, length: uint16) returns (n: int)
      requires Valid() && length <= |data|
      modifies this
      ensures Valid()
      ensures Model() == SerialModel.WritePort(old(Model()), data, length).port
      ensures n == SerialModel.WritePort(old(Model()), data, length).n
    {
      if state != Open || uartDev.None? {
        return -1;
      }
      var i := 0;
      while i < length
        invariant 0 <= i <= length
        invariant calls == old(calls) + PollOuts(data[..i])
        invariant Model() == old(Model()).(calls := calls)
      {
        assert data[..i + 1][..i] == data[..i];
        calls := calls + [PollOut(data[i])];
        i := i + 1;
      }
      return length;
    }

    /** `readZephyr`: `bytes` is the caller's buffer, NULL when `bytes == null`. */
    method Read(bytes: array?<byte>, length: uint16) returns (n: int)
      requires Valid() && (bytes != null ==> length <= bytes.Length)
      modifies this, bytes
      ensures Valid()
      ensures Model() == SerialModel.ReadPort(old(Model()), length, bytes != null).port
      ensures n == SerialModel.ReadPort(old(Model()), length, bytes != null).n
      ensures bytes != null ==>
                var got := SerialModel.ReadPort(old(Model()), length, true).data;
                bytes[..] == got + old(bytes[..])[|got|..]
    {
      if state != Open || bytes == null {
        return -1;
      }
      var got := RingBuf.Get(rxQueue, length);
      var i := 0;
      while i < |got.out|
        invariant 0 <= i <= |got.out| <= bytes.Length
        invariant bytes[..i] == got.out[..i]
        invariant forall k :: i <= k < bytes.Length ==> bytes[k] == old(bytes[k])
        modifies bytes
      {
        bytes[i] := got.out[i];
        i := i + 1;
      }
      assert bytes[..] == got.out + old(bytes[..])[|got.out|..];
      rxQueue := got.queue;
      return |got.out|;
    }

    /** `peekZephyr`. */
    method Peek() returns (n: int)
      requires Valid()
      ensures n == SerialModel.PeekPort(Model())
      ensures n <= RX_BUFFER_SIZE
    {
      if state != Open {
        return -1;
      }
      return |rxQueue|;
    }
  }
}
